=== FILE: README.md ===
# Garage-door licence-plate opener — a Dafny model

This project models the decision core of a licence-plate recognition (LPR) garage opener. A camera stream is sampled at most once every 10 seconds. Each plate cut from a sampled frame is read by an OCR engine, and the text is normalised. It is then compared against a whitelist with an OCR-tolerant similarity score. When the similarity reaches 80% the garage door is opened through a Meross cloud controller. The controller refuses to open again within a 120-second cooldown, and every successful open is written to a CSV log.

The project has six modules, one file each:

| file | module | models |
|---|---|---|
| `wrappers.dfy` | `Wrappers` | the `Option` type |
| `plate_text.dfy` | `PlateText` | ASCII upper-casing, the two OCR character maps, `license_complies_format`, `format_license` (util.py) |
| `similarity.dfy` | `Similarity` | the weighted Levenshtein distance, `calculate_similarity_score`, `is_string_similar_to_any_in_list` (util.py) |
| `ocr_result.dfy` | `OcrResult` | the parse-and-normalise part of `read_license_plate` (util.py) |
| `meross_controller.dfy` | `Meross` | the class `MerossGarageController` (meross_controller.py) |
| `main_loop.dfy` | `Main` | `open_garage_door` with its cached controller, the match-open-log rule of `process_frame_for_lpr`, and the sampling and reconnect policy of the `main` loop (main.py) |

Edit costs are kept in tenths so that they are exact: an insertion, a deletion or a plain substitution costs 10, and a substitution between an OCR-confusable pair costs 3. The DP table of the source is a method over rolling rows. It is proved equal to a recursive definition of the distance, `Similarity.Dist`, and symmetry, the zero-iff-equal property and the bounds are proved about that definition. The worked examples in util.py's comments are proved as instances of it, each as its own lemma.

The controller and the main loop are classes whose methods update their fields. Every call to the Meross cloud is an outcome parameter: authentication and discovery, the health probe, the open and close commands. The monotonic clock becomes explicit time arguments. Ghost fields record the history the properties are about: `opens` holds the times of the successful opens, `processed` the times of the processed frames, and `streamOps` the stream actions taken after a failed read.

Headline properties:

- two successful opens of one controller are at least the cooldown apart (`Meross.OpensSpaced`);
- two processed frames are at least 10 seconds apart (`Main.ProcessedSpaced`);
- every row of the audit log records a door code of 1 for a processed frame, and its plate text has no special character and matches the whitelist at 80% (`Main.Pipeline.Valid`, kept by every method);
- the door opens exactly once per log row (`Main.Pipeline.Valid`): `Main.DoorService` keeps the history of every successful open, across controllers;
- a due frame whose first plate matches the whitelist, with outcomes that let the door open, logs that plate's row (`Main.Pipeline.OnFrame`, built on `Main.DoorService.OpenGarageDoor` returning 1 exactly then);
- the loop's sampling is a function of the trace: `Main.Pipeline.Run` ends in the timing state that `Main.Replay` computes, and the 0/3/6/9/11 s cadence is an instance (`Main.CadenceExample`);
- a plate that does not match never reaches the door service (`Main.Pipeline.HandleText`), so an empty whitelist, which is how main.py ships, never opens the door and never writes a log row (`Main.Pipeline.Run`).

## Model

| member | source | states |
|---|---|---|
| PlateText.Upper | util.py:292 | the result has no lower-case ASCII letter; each lower-case letter becomes its capital and every other character is kept, in place |
| PlateText.UpperIdempotent | util.py:474-479 | upper-casing an upper-cased string changes nothing, which is why the swapped recursive call of the distance sees the same strings |
| PlateText.CharToInt | util.py:52 | each letter key of the letter-to-digit map goes to a digit key of the reverse map |
| PlateText.IntToChar | util.py:54 | each digit key of the digit-to-letter map goes to a letter key of the forward map |
| PlateText.CharMapsInverse | util.py:52-54 | the two maps are inverse to each other |
| PlateText.LicenseCompliesFormat | util.py:137-231 | only six-character texts can comply |
| PlateText.LicenseCompliesFormatIffLayout | util.py:148-231 | the validator accepts exactly the six-character texts that fit one of LLLNNN, NNNLLL, LLNNLL, LLNLLL, NLLLLL, LLLNLN, where L is a letter or OCR-letter and N a digit or OCR-digit |
| PlateText.LayoutCommentExamples | util.py:195-220 | 1ASHFH and ABC1D2 comply; ASD9FH, the example given for the LLNLLL check, does not |
| PlateText.FormatLicense | util.py:234-306 | a text whose length is not 6 comes back unchanged; otherwise each upper-cased character goes through the letter/digit swap once, in place |
| PlateText.SwapCharInvolutive | util.py:291-305 | the swap applied twice gives the character back |
| PlateText.CanonicalNoLowerCase | util.py:291-306 | a formatted six-character plate has no lower-case letter |
| PlateText.CanonicalTwice | util.py:245-306 | formatting twice gives the upper-cased input back: the swap undoes itself |
| PlateText.SwapKeepsClasses | util.py:152-160 | the swap never moves a character in or out of the validator's letter or digit class |
| PlateText.CanonicalKeepsCompliance | util.py:137-231 | a formatted six-character plate complies exactly when its upper-cased form complies: the swap keeps every letter and digit class |
| Similarity.SubCost | util.py:494-498 | the substitution cost is 0 exactly for equal characters and never more than one edit |
| Similarity.SubCostSymmetric | util.py:497 | the sorted pair lookup makes the cost independent of the order of the two characters |
| Similarity.PrefixDistSymmetric | util.py:477-479 | the distance is the same whichever string gives the rows, which justifies the swap when the first string is shorter |
| Similarity.DistSymmetric | util.py:477-479 | the distance between two strings does not depend on their order |
| Similarity.PrefixDistZeroIff | util.py:486-501 | two prefixes are at distance 0 if and only if they are equal |
| Similarity.DistZeroIff | util.py:470-504 | two strings are at distance 0 if and only if they are equal |
| Similarity.PrefixDistGap | util.py:465-467 | a non-zero distance is at least one confusable substitution (0.3) |
| Similarity.PrefixDistUpperBound | util.py:484-501 | the distance is at most one edit per character of the longer prefix |
| Similarity.PrefixDistLowerBound | util.py:484-501 | the distance is at least one edit per character of length difference |
| Similarity.PrefixDistExtendRight | util.py:488-501 | one more character of the column string lowers the distance by at most one edit |
| Similarity.PrefixDistDropEqual | util.py:495-500 | equal last characters are matched at no cost |
| Similarity.PrefixDistDeleteLast | util.py:490-491 | one more character of the row string raises the distance by at most one edit |
| Similarity.PrefixDistSubstitute | util.py:494-501 | one diagonal step costs at most the substitution cost of the two characters |
| Similarity.CustomLevenshteinDistance | util.py:470-504 | returns the weighted distance between the upper-cased strings, whichever is longer |
| Similarity.RollingRows | util.py:484-504 | the rolling-row table computes the weighted distance |
| Similarity.NextRow | util.py:487-501 | the inner loop turns row i of the table into row i + 1 |
| Similarity.SimilarityScore | util.py:507-528 | the score lies between 0.0 and 1.0 |
| Similarity.SimilarityIsRawScore | util.py:521-528 | for two non-empty strings, the clamp at 0 never applies |
| Similarity.SimilarityEmpty | util.py:516-519 | two empty strings score 1.0, and exactly one empty string scores 0.0 |
| Similarity.SimilaritySymmetric | util.py:507-528 | the score does not depend on the order of its arguments |
| Similarity.SimilarityOneIff | util.py:507-512 | two non-empty strings score 1.0 if and only if they are equal up to case |
| Similarity.SimilarityReflexive | util.py:507-528 | every string scores 1.0 against itself |
| Similarity.EqualSuffixKeeps | util.py:486-501 | equal trailing characters do not add to the distance |
| Similarity.SingleSubstitutionDist | util.py:486-501 | strings of equal length differing in one position are exactly that substitution's cost apart |
| Similarity.OneExtraCharacterDist | util.py:585-587 | a string with one extra character, for example a hyphen, is exactly one edit away |
| Similarity.PrefixDistAtMostDiagonal | util.py:486-501 | position-by-position substitution bounds the distance from above |
| Similarity.SingleSubstitutionScore | util.py:596-604 | one differing position scores 1 - cost / length: OPEN against 0PEN gives 0.925, HH against HM gives 0.85 |
| Similarity.ConfusableScoresHigher | util.py:447-467 | a confusable misreading scores strictly higher than a plain one in the same position |
| Similarity.OneExtraCharacterScore | util.py:584-589 | one extra character scores 1 - 1 / longer length: 1S8-3HH against 1S83HH gives 6/7 |
| Similarity.DiagonalScoreBound | util.py:486-501 | equal-length strings score at least 1 - (sum of the position-by-position substitution costs) / length |
| Similarity.DropFourthBound | util.py:486-501 | seven characters against six, with the fourth character dropped and the rest aligned in order, are at most one edit plus the two substitutions apart |
| Similarity.DropFourthScore | util.py:507-528 | in that alignment, two confusable pairs give a score of at least 1 - 1.6 / 7 |
| Similarity.OpenAgainstZeroPenScore | util.py:601-604 | OPEN against 0PEN scores exactly 0.925, as the comment says |
| Similarity.TwoCharacterConfusableScores | util.py:591-599 | S8 against SB and HH against HM both score exactly 0.85 |
| Similarity.HyphenatedPlateScore | util.py:584-589 | 1S8-3HH against 1S83HH scores exactly 1 - 1/7, about 0.857, as the comment says |
| Similarity.HyphenatedMisreadScore | util.py:572-577 | 1S8-3HH against 1SB3HM scores at least 1 - 1.6 / 7, about 0.771, so it clears 70% as the comment expects |
| Similarity.TwoConfusablePairsScore | util.py:573 | the two whitelist entries 1SB3HM and 1S83HH, two confusable pairs apart, score at least 0.9 against each other |
| Similarity.IsStringSimilarToAnyInList | util.py:531-566 | true if and only if some entry scores at least percent / 100 against the text; an empty list never matches |
| Similarity.MatchMonotoneInThreshold | util.py:549-564 | lowering the threshold never turns a match into a miss |
| Similarity.ExactEntryMatches | util.py:531-566 | an entry equal to the text up to case matches at any threshold up to 100% |
| Similarity.ListMatchExamples | util.py:572-609 | the list calls of the comments: 1S8-3HH matches the three-entry list at 70% and at 80%, and 1S83HH alone at 85%; an empty list matches nothing; an empty text matches an empty entry and no non-empty one |
| OcrResult.Get | util.py:399-403 | a present key reads its stored value, and a missing key reads as None |
| OcrResult.Or | util.py:399-406 | an `or` chain yields its first operand when that is truthy and its second operand otherwise |
| OcrResult.Extract | util.py:391-421 | a text is found only as a string, or in a dict result, or in a list whose first element is a dict |
| OcrResult.Strip | util.py:427-431 | the stripped text has no special character and keeps every other character with its multiplicity |
| OcrResult.StripIsSubsequence | util.py:427-431 | stripping only deletes characters; the rest keep their order |
| OcrResult.StripKeepsClean | util.py:427-431 | text without special characters is left unchanged |
| OcrResult.StripIdempotent | util.py:427-431 | stripping twice is stripping once |
| OcrResult.ScoreValue | util.py:433-437 | a missing score gives None and a number gives itself |
| OcrResult.ReadLicensePlate | util.py:387-439 | no text implies no score; the text is None exactly when the recogniser raised or no text was found; a stripped text has no special character |
| OcrResult.ReadTextIsStrippedSubsequence | util.py:426-431 | the returned text is the recognised text stripped, an ordered subsequence of it, and is stable under stripping |
| OcrResult.StringListResult | util.py:391-397 | a list whose first element is a string gives that string, normalised, with no score |
| OcrResult.DictWithText | util.py:391-421 | a dict, bare or first in a list, whose "text" is a non-empty string gives that string (stripped when asked) and the score found under "score", "confidence" or "prob" |
| OcrResult.DictFallThrough | util.py:398-406 | a falsy "text" falls through to "plate", and a falsy "score" to "confidence" |
| OcrResult.DictWithoutText | util.py:398-424 | a dict with no truthy text key and no "license_plate" gives no text and no score |
| OcrResult.TupleResults | util.py:407-414 | the (text, score) and (bbox, text, score) tuple shapes give that text and score |
| OcrResult.NoTextShapes | util.py:391-424 | an empty list, a bare string or a number carries no text |
| OcrResult.UnconvertibleScore | util.py:433-439 | a score that does not convert to a float becomes None, and the text is kept |
| Meross.FindOnlineDevice | meross_controller.py:54-61 | returns the first online device with the configured name, or None if and only if there is none |
| Meross.MerossGarageController.constructor | meross_controller.py:14-27 | a new controller has no session and no device, is not initialised, and has never opened |
| Meross.MerossGarageController.Create | meross_controller.py:14-16 | construction fails if and only if the email, password or device name is empty |
| Meross.MerossGarageController.CloseConnection | meross_controller.py:153-166 | logs out exactly when a manager exists; afterwards no device, session or flag is held, and the cooldown state is untouched |
| Meross.MerossGarageController.Initialize | meross_controller.py:29-78 | a ready controller returns at once; otherwise it logs in again and succeeds if and only if discovery lists an online device with the configured name; failure leaves no session |
| Meross.MerossGarageController.SelectDevice | meross_controller.py:47-72 | keeps an online device of the configured name if and only if discovery lists one, and closes the session otherwise |
| Meross.MerossGarageController.EnsureInitialized | meross_controller.py:80-98 | a ready controller with a healthy probe is left unchanged; otherwise exactly one login is made, and it decides the result; a failure leaves no device, manager or client |
| Meross.MerossGarageController.OpenDoor | meross_controller.py:110-135 | inside the cooldown, refuses and changes nothing; otherwise succeeds exactly when the open command succeeds on a ready session, where a not-ready controller or a failed probe first needs a re-login that finds the device; a success records the open time as the newest open and leaves the controller initialised; a failure outside the cooldown clears the flag; the re-login is exactly one login, none is made on a ready session with a healthy probe, and a re-login that finds no device leaves no device, manager or client |
| Meross.MerossGarageController.CloseDoor | meross_controller.py:137-151 | succeeds exactly when the close command succeeds on a ready session, where a not-ready controller or a failed probe first needs a re-login that finds the device; the re-login is exactly one login, none is made on a ready session with a healthy probe, and a re-login that finds no device leaves no device, manager or client; never touches the cooldown state |
| Meross.MerossGarageController.CanOpenDoor | meross_controller.py:100-104 | the door may be opened exactly when it has never been opened, or the cooldown has run out since the newest open |
| Meross.OpensSpaced | meross_controller.py:100-108 | any two successful opens are at least the cooldown apart per open between them |
| Meross.CooldownWindow | meross_controller.py:100-104 | the door may be opened before the first open, and afterwards exactly when the cooldown has run out since the last one |
| Main.DoorService.constructor | main.py:111 | the cached controller starts out absent |
| Main.DoorService.OpenGarageDoor | main.py:113-146 | -10 exactly when a credential is missing, and then nothing changes; an escaping exception gives -1 and drops the cached controller; otherwise -1 exactly when the controller was not ready and the login finds no online device of that name, and past that, 1 exactly when the cooldown allows, the open command succeeds and the probe passes or the re-login finds the device; the open history grows by the open time exactly on code 1; in sum, 1 exactly when `Main.DoorService.OpensWith` holds of the outcomes: credentials present, no escaping exception, a ready controller or a login that finds the device, the cooldown allowing, the open command succeeding, and a passing probe or a re-login that finds the device |
| Main.DoorService.InitializeAndOpen | main.py:127-136 | -1 exactly when the controller was not ready and the login finds no online device; past that, 1 exactly when the cooldown allows, the open command succeeds and the probe passes or the re-login finds the device, and 0 otherwise; the open history grows exactly on 1, and the controller records that time as its newest open |
| Main.Pipeline.constructor | main.py:222-228 | the loop runs only when the capture opened, the interval counts from the start time, the log starts empty, and the given whitelist, door service and value conversions are kept |
| Main.Pipeline.HandlePlate | main.py:182-205 | reads the plate with special characters removed; a plate without a matching text neither touches the door service nor logs; otherwise one row for this plate is logged exactly when the door opened, and the open history grows by one at the same time; a matching plate whose outcomes let the door open (`OpensWith`) logs exactly this plate's row and records one open, and outcomes that do not let it open change neither the log nor the open history |
| Main.Pipeline.HandleText | main.py:185-205 | a text that does not match the whitelist at 80% leaves the door service, its controller and the log untouched; a matching text logs a row with code 1 exactly when the door opened; a matching text whose outcomes let the door open (`OpensWith`) always reaches `open_garage_door` and logs its row with code 1 and records one open, and outcomes that do not let it open change neither the log nor the open history |
| Main.Pipeline.ProcessFrame | main.py:169-205 | appends rows stamped with this frame's time only; a frame where no plate matches opens nothing and logs nothing; when the first plate matches and its outcomes let the door open, that plate's row is the first row appended |
| Main.Pipeline.Step | main.py:231-270 | a due frame is processed and its time recorded; a frame that is not due leaves the door service, its controller and the log untouched; a failed read sleeps 5 s, releases and reopens, then stops the loop or restarts the interval; with an empty whitelist nothing is opened or logged; the processed times, the last processing time and the running flag move exactly as `Main.Tick` moves them; a due frame whose first plate matches and lets the door open logs that plate's row first |
| Main.Pipeline.Run | main.py:228-270 | the loop consumes the whole trace unless a reconnect fails, and then the last event consumed is that failure; the processed times, the last processing time and the running flag are those `Main.Replay` computes from the whole trace; processed times are only appended; the door opens exactly as many times as rows are logged; with an empty whitelist nothing is opened or logged |
| Main.Pipeline.OnFrame | main.py:246-270 | a frame is processed exactly when 10 s have passed since the last processing or reconnect; a frame that is not due touches neither the door service nor the log, and a frame with no matching plate opens nothing; a due frame whose first plate matches and lets the door open logs that plate's row first |
| Main.Pipeline.MarkProcessed | main.py:251-270 | a due frame's time is appended to the processed times and becomes the last processing time, keeping consecutive processed frames 10 s apart |
| Main.Pipeline.OnReadFailure | main.py:233-244 | sleep, release, reopen; a failed reopen stops the loop, and a successful one restarts the interval at the reconnect time |
| Main.ProcessedSpaced | main.py:251-253 | any two processed frames are at least 10 seconds apart per processed frame between them |
| Main.ReplayExtends | main.py:251-270 | replaying a trace only appends processed times |
| Main.ReplayStopped | main.py:238-241 | once a reconnect has failed, the rest of the trace changes nothing |
| Main.CadenceExample | main.py:246-253 | frames 0, 3, 6, 9 and 11 s after the last processing time give exactly one processed frame, at 11 s |
| Main.ReconnectExample | main.py:243-253 | after a successful reconnect at r, a frame at r + 9 is dropped and one at r + 10 is processed |

## Left out

- Upper-casing is ASCII only. Python's `str.upper()` also maps non-ASCII letters, and some of those change the string's length.
- Costs are exact tenths and scores are exact reals. Python's float rounding is not modelled.
- The recogniser, YOLO detection, cropping, thresholding and rotation with cv2 are not modelled. A frame arrives as the list of what the recogniser returned for each plate crop, and `read_license_plate` is applied to each.
- `str(text)` and `float(score)` on non-string and non-number values are function parameters (`renderOther`, `parseFloat`), because Python's conversions are not modelled.
- File output is not modelled: the CSV log is the `auditLog` field, and `log.txt`, `save_frame_to_jpg` and the evidence image are left out. Console output is left out.
- `write_csv` and the commented-out Tesseract helper of util.py are not modelled: nothing in the core calls them.
- The first loop of `format_license` builds a string it never uses, so it is not modelled.
- asyncio scheduling, `KeyboardInterrupt` and the final `cap.release()` are not modelled. `time.sleep(5)` is recorded as a ghost stream action rather than elapsed time.
- The device's online status is a parameter of each call. In `open_garage_door` it is the status when `initialize` begins; a successful `initialize` leaves the held device online, so `open_door` sees it online.
- The device's online status is otherwise not tracked between calls. The `hasattr(..., 'get_status')` test and the status request together form the single outcome `probeOk`.
- Main.DoorService.OpenGarageDoor: an exception that escapes the controller is decided before the controller is called, so the model does not capture a partial effect of the interrupted call.
- Meross.MerossGarageController.Initialize: a new login over an existing session overwrites it without logging the old one out, as the source does. The model does not track the abandoned session.
- Meross.MerossGarageController.OpenDoor: requires a positive monotonic clock. The source's `last_open_time <= 0` test treats a non-positive open time as "never opened".
- Similarity.DiagonalScoreBound: proves only a lower bound on the score, not its exact value.
- Similarity.HyphenatedMisreadScore: proves that 1S8-3HH against 1SB3HM scores at least 0.77 (1 - 1.6 / 7), but not the upper bound that would make it miss at 80%, as the comment at util.py line 580 expects. That needs a lower bound on the distance over every path through the table.
- The whitelist is a constructor parameter of `Main.Pipeline`. main.py ships it empty, and the model proves that an empty whitelist logs nothing.

The code disagrees with the comments of util.py in two places, and the model follows the code:

- HH against HM scores 0.85, where lines 596-599 say about 0.70 (`Similarity.TwoCharacterConfusableScores`).
- Lines 195-196 describe the fourth layout check as "LLDNLL" with the example ASD9FH. The check itself, at lines 197-205, tests LLNLLL. ASD9FH fits neither, and `license_complies_format` rejects it (`PlateText.LayoutCommentExamples`).

After an exception escapes the controller, main.py drops the cached controller, and the next call creates a new one whose last open time is 0. The cooldown therefore starts afresh: `Main.DoorService.OpenGarageDoor` opens without a cooldown check when no controller is cached.

After a reconnect, main.py restarts the interval at the reconnect time, so the first frame after a reconnect is not processed at once. The model follows that.

=== FILE: main_loop.dfy ===
/**
 * main.py: `open_garage_door` with its cached controller, the
 * match-open-log decision of `process_frame_for_lpr`, and the sampling and
 * reconnect policy of the `main` loop.
 *
 * Vision is not modelled: a frame arrives as the list of what
 * `read_license_plate` returned for each plate the detector cut out. The
 * monotonic clock is an argument of every event, and the cloud's answers
 * are outcome values.
 */
module Main {
  import opened Wrappers
  import opened Similarity
  import opened OcrResult
  import opened Meross

  /** LPR_PROCESSING_INTERVAL, in seconds. */
  const LprProcessingInterval: real := 10.0
  /** The `cooldown_seconds` default a controller gets when `open_garage_door` creates it. */
  const DefaultCooldown: real := 120.0
  /** The whitelist threshold of `process_frame_for_lpr`, in percent. */
  const MatchPercent: int := 80

  /** The return codes of `open_garage_door`. */
  const MissingCredentials: int := -10
  const NotReady: int := -1
  const NotOpened: int := 0
  const Opened: int := 1

  /**
   * What the cloud does during one `open_garage_door` call: the device's
   * status, how `initialize` and the re-initialisation inside `open_door`
   * end, whether the health probe and the open command go through, the two
   * clock readings of `open_door`, and whether an exception escapes from
   * the controller (the `except` branch of main.py, lines 137-146).
   */
  datatype DoorWorld = DoorWorld(
    online: bool, login: InitOutcome, probeOk: bool, relogin: InitOutcome, openOk: bool,
    checkTime: real, recordTime: real, escapes: bool)

  /**
   * The module-global `_controller` of main.py and the credentials read
   * from the environment (an unset variable reads as "").
   */
  class DoorService {
    const email: string
    const password: string
    const deviceName: string
    var controller: MerossGarageController?

    /** Controllers created so far, and times an exception dropped the cached one. */
    ghost var created: nat
    ghost var resets: nat
    /** The times of every successful open, whichever controller made it. */
    ghost var doorOpens: seq<real>

    ghost predicate Valid()
      reads this, controller
    {
      (controller != null ==>
         controller.Valid() && controller.email == email && controller.password == password &&
         controller.deviceName == deviceName && controller.cooldownSeconds == DefaultCooldown) &&
      created == resets + (if controller != null then 1 else 0)
    }

    predicate HasCredentials()
    {
      email != "" && password != "" && deviceName != ""
    }

    /**
     * `open_garage_door` returns 1 in world `w`: credentials are set, no
     * exception escapes, the held controller is ready or the login finds the
     * device, the cooldown allows (a new controller has none), the open
     * command goes through, and the probe passes or the re-login finds the
     * device.
     */
    ghost predicate OpensWith(w: DoorWorld)
      reads this, controller
    {
      HasCredentials() && !w.escapes &&
      (Finds(w.login, deviceName) || (controller != null && controller.Ready(w.online))) &&
      (controller == null || controller.CanOpenDoor(w.checkTime)) &&
      w.openOk && (w.probeOk || Finds(w.relogin, deviceName))
    }

    constructor (email: string, password: string, deviceName: string)
      ensures Valid() && controller == null && created == 0 && resets == 0 && doorOpens == []
      ensures this.email == email && this.password == password && this.deviceName == deviceName
    {
      this.email := email;
      this.password := password;
      this.deviceName := deviceName;
      controller := null;
      created := 0;
      resets := 0;
      doorOpens := [];
    }

    /**
     * `open_garage_door` (main.py, lines 113-146): -10 without credentials,
     * -1 when the controller cannot be initialised or an exception escapes
     * (which also drops the cached controller), otherwise 1 when the door
     * was opened and 0 when `open_door` declined. A successful `initialize`
     * leaves the held device online, so `open_door` sees it online.
     */
    method OpenGarageDoor(w: DoorWorld) returns (code: int)
      requires Valid()
      requires 0.0 < w.checkTime <= w.recordTime
      modifies this, controller
      ensures Valid()
      ensures code in {MissingCredentials, NotReady, NotOpened, Opened}
      ensures code == MissingCredentials <==> !HasCredentials()
      ensures !HasCredentials() ==> unchanged(this) && (old(controller) != null ==> unchanged(old(controller)))
      ensures HasCredentials() && w.escapes ==> code == NotReady && controller == null && resets == old(resets) + 1
      ensures HasCredentials() && !w.escapes ==>
                controller != null && resets == old(resets) &&
                (old(controller) != null ==> controller == old(controller)) &&
                (old(controller) == null ==> fresh(controller))
      ensures doorOpens == old(doorOpens) + (if code == Opened then [w.recordTime] else [])
      ensures HasCredentials() && !w.escapes ==>
                (code == NotReady <==>
                   !Finds(w.login, deviceName) && !old(controller != null && controller.Ready(w.online)))
      ensures HasCredentials() && !w.escapes && code != NotReady ==>
                (code == Opened <==>
                   old(controller == null || controller.CanOpenDoor(w.checkTime)) && w.openOk &&
                   (w.probeOk || Finds(w.relogin, deviceName)))
      ensures code == Opened ==> controller != null && controller.lastOpenTime == w.recordTime &&
                                 controller.opens != [] && controller.opens[|controller.opens| - 1] == w.recordTime
      ensures code != Opened && controller != null && old(controller) == controller ==>
                controller.opens == old(controller.opens)
      ensures code == Opened <==> old(OpensWith(w))
    {
      if !HasCredentials() {
        return MissingCredentials;
      }
      if controller == null {
        controller := new MerossGarageController(email, password, deviceName, DefaultCooldown);
        created := created + 1;
      }
      if w.escapes {
        var _ := controller.CloseConnection();
        controller := null;
        resets := resets + 1;
        return NotReady;
      }
      code := InitializeAndOpen(w);
    }

    /** The `initialize` and `open_door` calls of `open_garage_door` on the held controller. */
    method InitializeAndOpen(w: DoorWorld) returns (code: int)
      requires Valid() && controller != null
      requires 0.0 < w.checkTime <= w.recordTime
      modifies this, controller
      ensures Valid() && controller == old(controller)
      ensures created == old(created) && resets == old(resets)
      ensures code in {NotReady, NotOpened, Opened}
      ensures doorOpens == old(doorOpens) + (if code == Opened then [w.recordTime] else [])
      ensures code == NotReady <==> !Finds(w.login, deviceName) && !old(controller.Ready(w.online))
      ensures code != NotReady ==>
                (code == Opened <==>
                   old(controller.CanOpenDoor(w.checkTime)) && w.openOk && (w.probeOk || Finds(w.relogin, deviceName)))
      ensures code == Opened ==> controller.lastOpenTime == w.recordTime &&
                                 controller.opens != [] && controller.opens[|controller.opens| - 1] == w.recordTime
      ensures code != Opened ==> controller.opens == old(controller.opens)
    {
      var ready := controller.Initialize(w.online, w.login);
      if !ready {
        return NotReady;
      }
      var doorOpened := controller.OpenDoor(w.checkTime, w.recordTime, true, w.probeOk, w.relogin, w.openOk);
      if doorOpened {
        doorOpens := doorOpens + [w.recordTime];
        code := Opened;
      } else {
        code := NotOpened;
      }
    }
  }

  /**
   * One plate of a frame: what the recogniser returned for its crop (None
   * when it raised) and what the cloud does if the door is asked to open;
   * or an exception that ends the frame's processing at that point.
   */
  datatype PlateEvent =
    | Plate(run: Option<Value>, world: DoorWorld)
    | Fault

  /** A row of the CSV log: frame time, plate text, plate score and door code. */
  datatype LogRow = LogRow(time: real, text: string, score: Option<real>, doorOpen: int)

  /** What the main loop receives from the stream. */
  datatype Event =
    | FrameRead(t: real, plates: seq<PlateEvent>)
    | ReadFailed(reconnected: bool, t: real)   // `t`: the clock once the capture was reopened

  /** The stream actions the loop takes after a failed read. */
  datatype StreamOp = Sleep(seconds: real) | Release | Reopen

  /** The door times a frame's plates may use: after the frame was taken. */
  predicate PlatesAfter(plates: seq<PlateEvent>, t: real)
  {
    forall k :: 0 <= k < |plates| && plates[k].Plate? ==>
      t <= plates[k].world.checkTime <= plates[k].world.recordTime
  }

  /** The events' clock readings never go back, starting from `start`, and door times follow their frame. */
  predicate Chronological(events: seq<Event>, start: real)
  {
    (forall k :: 0 <= k < |events| ==> events[k].t >= start) &&
    (forall k :: 0 < k < |events| ==> events[k].t >= events[k - 1].t) &&
    (forall k :: 0 <= k < |events| && events[k].FrameRead? ==> PlatesAfter(events[k].plates, events[k].t))
  }

  /** `log` is `prefix` followed by rows, if any, all stamped with time `t`. */
  predicate AppendedAt(log: seq<LogRow>, prefix: seq<LogRow>, t: real)
  {
    |log| >= |prefix| && log[..|prefix|] == prefix && forall k :: |prefix| <= k < |log| ==> log[k].time == t
  }

  /** Appending twice at the same time is appending once. */
  lemma AppendedAtTrans(log: seq<LogRow>, middle: seq<LogRow>, prefix: seq<LogRow>, t: real)
    requires AppendedAt(log, middle, t) && AppendedAt(middle, prefix, t)
    ensures AppendedAt(log, prefix, t)
  {
    assert log[..|middle|][..|prefix|] == log[..|prefix|];
  }

  class Pipeline {
    const whitelist: seq<string>
    const service: DoorService
    /** Python's `str` and `float` on the values the recogniser returns. */
    const renderOther: Value -> string
    const parseFloat: Value -> Option<real>
    /** `last_lpr_processed_time` */
    var lastProcessed: real
    var running: bool
    /** The rows written by `write_log_entry`. */
    var auditLog: seq<LogRow>

    /** The latest clock reading seen, the times of the frames processed, and the stream actions taken. */
    ghost var clock: real
    ghost var processed: seq<real>
    ghost var streamOps: seq<StreamOp>
    /** How many door opens the service had made before this loop started. */
    ghost var baseOpens: nat

    /** `read_license_plate(crop)` on what the recogniser returned, special characters removed. */
    function Reading(run: Option<Value>): Recognition
    {
      ReadLicensePlate(run, true, renderOther, parseFloat)
    }

    /** The plate has a text and the text matches the whitelist at 80%. */
    ghost predicate Matches(run: Option<Value>)
    {
      Reading(run).text.Some? && SomeEntryClears(Reading(run).text.value, whitelist, MatchPercent)
    }

    /** The row logged for a plate with a text when the door opened. */
    function PlateRow(t: real, run: Option<Value>): LogRow
      requires Reading(run).text.Some?
    {
      LogRow(t, Reading(run).text.value, Reading(run).score, Opened)
    }

    /** The frame's first plate matches the whitelist and would open the door as the service stands. */
    ghost predicate LeadOpens(plates: seq<PlateEvent>)
      reads service, service.controller
    {
      |plates| > 0 && plates[0].Plate? && Matches(plates[0].run) && service.OpensWith(plates[0].world)
    }

    /** No plate of the frame, up to its first fault, matches the whitelist. */
    ghost predicate NoneMatch(plates: seq<PlateEvent>)
    {
      forall k :: 0 <= k < |plates| && plates[k].Plate? ==> !Matches(plates[k].run)
    }

    /**
     * Processed frames are at least the interval apart and never later than
     * the reference time; every log row is for a processed frame, records a
     * successful open and a cleaned plate text that matches the whitelist;
     * and the door was opened exactly once per log row since the loop began.
     */
    ghost predicate Valid()
      reads this, service, service.controller
    {
      service.Valid() &&
      0.0 < lastProcessed <= clock &&
      (processed != [] ==> processed[|processed| - 1] <= lastProcessed) &&
      (forall k :: 0 < k < |processed| ==> processed[k] - processed[k - 1] >= LprProcessingInterval) &&
      (forall r :: r in auditLog ==>
         r.doorOpen == Opened && r.time in processed && NoSpecial(r.text) &&
         SomeEntryClears(r.text, whitelist, MatchPercent)) &&
      |service.doorOpens| == baseOpens + |auditLog|
    }

    /**
     * Start-up (main.py, lines 222-228): the loop runs only when the capture
     * opened, and the interval is counted from the start time.
     */
    constructor (whitelist: seq<string>, service: DoorService, renderOther: Value -> string,
                 parseFloat: Value -> Option<real>, captureOpened: bool, startTime: real)
      requires service.Valid() && startTime > 0.0
      ensures Valid()
      ensures this.whitelist == whitelist && this.service == service
      ensures this.renderOther == renderOther && this.parseFloat == parseFloat
      ensures running == captureOpened && lastProcessed == startTime
      ensures auditLog == [] && processed == [] && streamOps == []
    {
      this.whitelist := whitelist;
      this.service := service;
      this.renderOther := renderOther;
      this.parseFloat := parseFloat;
      lastProcessed := startTime;
      running := captureOpened;
      auditLog := [];
      clock := startTime;
      processed := [];
      streamOps := [];
      baseOpens := |service.doorOpens|;
    }

    /** Due for processing at time `t`. */
    predicate Due(t: real)
      reads this
    {
      t - lastProcessed >= LprProcessingInterval
    }

    /**
     * One plate of `process_frame_for_lpr` (main.py, lines 182-205): read
     * the plate, and go on to the whitelist only when it has a text.
     */
    method HandlePlate(t: real, run: Option<Value>, world: DoorWorld)
      requires Valid() && t in processed && 0.0 < t <= world.checkTime <= world.recordTime
      modifies this, service, service.controller
      ensures Valid()
      ensures lastProcessed == old(lastProcessed) && processed == old(processed)
      ensures running == old(running) && streamOps == old(streamOps) && clock == old(clock)
      ensures baseOpens == old(baseOpens)
      ensures !Matches(run) ==>
                auditLog == old(auditLog) && unchanged(service) &&
                (old(service.controller) != null ==> unchanged(old(service.controller)))
      ensures (auditLog == old(auditLog) && service.doorOpens == old(service.doorOpens)) ||
              (Matches(run) &&
               auditLog == old(auditLog) + [LogRow(t, Reading(run).text.value, Reading(run).score, Opened)] &&
               service.doorOpens == old(service.doorOpens) + [world.recordTime])
      ensures AppendedAt(auditLog, old(auditLog), t)
      ensures service.controller != null ==>
                service.controller == old(service.controller) || fresh(service.controller)
      ensures Matches(run) && old(service.OpensWith(world)) ==>
                auditLog == old(auditLog) + [PlateRow(t, run)] &&
                service.doorOpens == old(service.doorOpens) + [world.recordTime]
      ensures !old(service.OpensWith(world)) ==>
                auditLog == old(auditLog) && service.doorOpens == old(service.doorOpens)
    {
      var reading := ReadLicensePlate(run, true, renderOther, parseFloat);
      ghost var before := auditLog;
      if reading.text.Some? {
        HandleText(t, reading.text.value, reading.score, world);
      }
      assert AppendedAt(auditLog, before, t);
    }

    /**
     * A plate with text `text` (main.py, lines 185-205): when the text
     * matches the whitelist at 80%, open the door; log a row exactly when
     * the door code is 1.
     */
    method HandleText(t: real, text: string, score: Option<real>, world: DoorWorld)
      requires Valid() && t in processed && 0.0 < t <= world.checkTime <= world.recordTime
      requires NoSpecial(text)
      modifies this, service, service.controller
      ensures Valid()
      ensures lastProcessed == old(lastProcessed) && processed == old(processed)
      ensures running == old(running) && streamOps == old(streamOps) && clock == old(clock)
      ensures baseOpens == old(baseOpens)
      ensures !SomeEntryClears(text, whitelist, MatchPercent) ==>
                auditLog == old(auditLog) && unchanged(service) &&
                (old(service.controller) != null ==> unchanged(old(service.controller)))
      ensures (auditLog == old(auditLog) && service.doorOpens == old(service.doorOpens)) ||
              (SomeEntryClears(text, whitelist, MatchPercent) &&
               auditLog == old(auditLog) + [LogRow(t, text, score, Opened)] &&
               service.doorOpens == old(service.doorOpens) + [world.recordTime])
      ensures service.controller != null ==>
                service.controller == old(service.controller) || fresh(service.controller)
      ensures SomeEntryClears(text, whitelist, MatchPercent) && old(service.OpensWith(world)) ==>
                auditLog == old(auditLog) + [LogRow(t, text, score, Opened)] &&
                service.doorOpens == old(service.doorOpens) + [world.recordTime]
      ensures !old(service.OpensWith(world)) ==>
                auditLog == old(auditLog) && service.doorOpens == old(service.doorOpens)
    {
      var doorOpen := NotOpened;
      var matches := IsStringSimilarToAnyInList(text, whitelist, MatchPercent);
      if matches {
        doorOpen := service.OpenGarageDoor(world);
      }
      if doorOpen == Opened {
        auditLog := auditLog + [LogRow(t, text, score, doorOpen)];
      }
    }

    /**
     * The decision part of `process_frame_for_lpr` over a frame's plates, in
     * order; a fault ends the frame.
     */
    method ProcessFrame(t: real, plates: seq<PlateEvent>)
      requires Valid() && t in processed && t > 0.0 && PlatesAfter(plates, t)
      modifies this, service, service.controller
      ensures Valid()
      ensures lastProcessed == old(lastProcessed) && processed == old(processed)
      ensures running == old(running) && streamOps == old(streamOps) && clock == old(clock)
      ensures baseOpens == old(baseOpens)
      ensures AppendedAt(auditLog, old(auditLog), t)
      ensures NoneMatch(plates) ==> auditLog == old(auditLog) && service.doorOpens == old(service.doorOpens)
      ensures service.controller != null ==>
                service.controller == old(service.controller) || fresh(service.controller)
      ensures old(LeadOpens(plates)) ==>
                |auditLog| > |old(auditLog)| && auditLog[|old(auditLog)|] == PlateRow(t, plates[0].run)
    {
      var k := 0;
      while k < |plates|
        invariant 0 <= k <= |plates|
        invariant Valid()
        invariant lastProcessed == old(lastProcessed) && processed == old(processed)
        invariant running == old(running) && streamOps == old(streamOps) && clock == old(clock)
        invariant baseOpens == old(baseOpens)
        invariant AppendedAt(auditLog, old(auditLog), t)
        invariant NoneMatch(plates) ==> auditLog == old(auditLog) && service.doorOpens == old(service.doorOpens)
        invariant service.controller != null ==>
                    service.controller == old(service.controller) || fresh(service.controller)
        invariant k == 0 ==> auditLog == old(auditLog) && (LeadOpens(plates) <==> old(LeadOpens(plates)))
        invariant k > 0 && old(LeadOpens(plates)) ==>
                    |auditLog| > |old(auditLog)| && auditLog[|old(auditLog)|] == PlateRow(t, plates[0].run)
      {
        if plates[k].Fault? {
          return;
        }
        ghost var before := auditLog;
        HandlePlate(t, plates[k].run, plates[k].world);
        AppendedAtTrans(auditLog, before, old(auditLog), t);
        if k > 0 && old(LeadOpens(plates)) {
          assert auditLog[..|before|][|old(auditLog)|] == before[|old(auditLog)|];
        }
        k := k + 1;
      }
    }

    /**
     * One turn of the `main` loop (main.py, lines 231-270). A frame is
     * processed only when the interval has passed since the last processed
     * frame or reconnect, and the time is then recorded whatever the
     * processing did; other frames are dropped. A failed read waits 5 s,
     * releases and reopens the capture; the loop stops if that fails and
     * otherwise restarts the interval from the reconnect time.
     */
    method Step(e: Event)
      requires Valid() && running
      requires e.t >= clock
      requires e.FrameRead? ==> PlatesAfter(e.plates, e.t)
      modifies this, service, service.controller
      ensures Valid()
      ensures clock == e.t && baseOpens == old(baseOpens)
      ensures whitelist == [] ==> auditLog == old(auditLog) && service.doorOpens == old(service.doorOpens)
      ensures service.controller != null ==>
                service.controller == old(service.controller) || fresh(service.controller)
      ensures e.FrameRead? && old(Due(e.t)) ==>
                running && processed == old(processed) + [e.t] && lastProcessed == e.t &&
                streamOps == old(streamOps) && AppendedAt(auditLog, old(auditLog), e.t)
      ensures e.FrameRead? && !old(Due(e.t)) ==>
                running && processed == old(processed) && lastProcessed == old(lastProcessed) &&
                auditLog == old(auditLog) && streamOps == old(streamOps) && unchanged(service) &&
                (old(service.controller) != null ==> unchanged(old(service.controller)))
      ensures e.ReadFailed? ==>
                streamOps == old(streamOps) + [Sleep(5.0), Release, Reopen] && running == e.reconnected &&
                processed == old(processed) && auditLog == old(auditLog) && unchanged(service) &&
                lastProcessed == (if e.reconnected then e.t else old(lastProcessed))
      ensures Cadence(processed, lastProcessed, running) ==
                Tick(Cadence(old(processed), old(lastProcessed), true), e)
      ensures e.FrameRead? && old(Due(e.t)) && old(LeadOpens(e.plates)) ==>
                |auditLog| > |old(auditLog)| && auditLog[|old(auditLog)|] == PlateRow(e.t, e.plates[0].run)
    {
      match e {
        case FrameRead(t, plates) =>
          OnFrame(t, plates);
        case ReadFailed(reconnected, t) =>
          OnReadFailure(reconnected, t);
      }
    }

    /**
     * The `main` loop over a trace of stream events, until the trace ends or
     * a reconnect fails. Returns how many events were consumed.
     */
    method Run(events: seq<Event>) returns (consumed: nat)
      requires Valid() && running && Chronological(events, clock)
      modifies this, service, service.controller
      ensures Valid()
      ensures consumed <= |events|
      ensures running ==> consumed == |events|
      ensures !running ==> consumed > 0 && events[consumed - 1] == ReadFailed(false, events[consumed - 1].t)
      ensures |processed| >= |old(processed)| && processed[..|old(processed)|] == old(processed)
      ensures |service.doorOpens| - |old(service.doorOpens)| == |auditLog| - |old(auditLog)|
      ensures whitelist == [] ==> auditLog == old(auditLog) && service.doorOpens == old(service.doorOpens)
      ensures Cadence(processed, lastProcessed, running) ==
                Replay(events, Cadence(old(processed), old(lastProcessed), true))
    {
      consumed := 0;
      while consumed < |events| && running
        invariant 0 <= consumed <= |events|
        invariant Valid() && baseOpens == old(baseOpens)
        invariant running || (consumed > 0 && events[consumed - 1] == ReadFailed(false, events[consumed - 1].t))
        invariant consumed < |events| ==> events[consumed].t >= clock
        invariant whitelist == [] ==> auditLog == old(auditLog) && service.doorOpens == old(service.doorOpens)
        invariant service.controller != null ==>
                    service.controller == old(service.controller) || fresh(service.controller)
        invariant Cadence(processed, lastProcessed, running) ==
                    Replay(events[..consumed], Cadence(old(processed), old(lastProcessed), true))
      {
        var e := events[consumed];
        Step(e);
        ReplaySnoc(events, consumed, Cadence(old(processed), old(lastProcessed), true));
        consumed := consumed + 1;
      }
      if consumed < |events| {
        ReplayStopped(events, consumed, Cadence(old(processed), old(lastProcessed), true));
      } else {
        assert events[..consumed] == events;
      }
      ReplayExtends(events, Cadence(old(processed), old(lastProcessed), true));
    }

    /** A frame was read at monotonic time `t` (main.py, lines 246-270). */
    method OnFrame(t: real, plates: seq<PlateEvent>)
      requires Valid() && running && t >= clock && PlatesAfter(plates, t)
      modifies this, service, service.controller
      ensures Valid() && running && clock == t && streamOps == old(streamOps) && baseOpens == old(baseOpens)
      ensures old(Due(t)) ==>
                processed == old(processed) + [t] && lastProcessed == t && AppendedAt(auditLog, old(auditLog), t)
      ensures NoneMatch(plates) ==> auditLog == old(auditLog) && service.doorOpens == old(service.doorOpens)
      ensures !old(Due(t)) ==>
                processed == old(processed) && lastProcessed == old(lastProcessed) &&
                auditLog == old(auditLog) && unchanged(service) &&
                (old(service.controller) != null ==> unchanged(old(service.controller)))
      ensures service.controller != null ==>
                service.controller == old(service.controller) || fresh(service.controller)
      ensures old(Due(t)) && old(LeadOpens(plates)) ==>
                |auditLog| > |old(auditLog)| && auditLog[|old(auditLog)|] == PlateRow(t, plates[0].run)
    {
      if t - lastProcessed >= LprProcessingInterval {
        MarkProcessed(t);
        ProcessFrame(t, plates);
      } else {
        clock := t;
      }
    }

    /** A due frame (main.py, lines 251-270): its time becomes the last processing time. */
    method MarkProcessed(t: real)
      requires Valid() && t >= clock && Due(t)
      modifies this
      ensures Valid() && clock == t && t in processed
      ensures processed == old(processed) + [t] && lastProcessed == t
      ensures auditLog == old(auditLog) && running == old(running) && streamOps == old(streamOps)
      ensures baseOpens == old(baseOpens)
    {
      clock := t;
      processed := processed + [t];
      lastProcessed := t;
    }

    /**
     * A read failed (main.py, lines 233-244): wait 5 s, release, reopen; stop
     * when reopening fails, otherwise restart the interval at the reconnect
     * time `t`.
     */
    method OnReadFailure(reconnected: bool, t: real)
      requires Valid() && running && t >= clock
      modifies this
      ensures Valid() && clock == t && baseOpens == old(baseOpens)
      ensures streamOps == old(streamOps) + [Sleep(5.0), Release, Reopen] && running == reconnected
      ensures processed == old(processed) && auditLog == old(auditLog)
      ensures lastProcessed == (if reconnected then t else old(lastProcessed))
    {
      clock := t;
      streamOps := streamOps + [Sleep(5.0), Release, Reopen];
      if reconnected {
        lastProcessed := t;
      } else {
        running := false;
      }
    }
  }

  /** Any two processed frames are at least the interval apart, not only neighbours. */
  lemma {:induction false} ProcessedSpaced(p: Pipeline, i: nat, j: nat)
    requires p.Valid() && i < j < |p.processed|
    ensures p.processed[j] - p.processed[i] >= LprProcessingInterval * (j - i) as real
    decreases j - i
  {
    if j > i + 1 {
      ProcessedSpaced(p, i, j - 1);
    }
  }

  /**
   * The loop's timing state as a function of the trace: the frames
   * processed so far, the last processing (or reconnect) time, and whether
   * the loop still runs.
   */
  datatype Cadence = Cadence(times: seq<real>, last: real, running: bool)

  /** One event's effect on the timing state (main.py, lines 231-270). */
  function Tick(c: Cadence, e: Event): Cadence
  {
    if !c.running then c
    else match e
      case FrameRead(t, _) =>
        if t - c.last >= LprProcessingInterval then Cadence(c.times + [t], t, true) else c
      case ReadFailed(reconnected, t) =>
        if reconnected then Cadence(c.times, t, true) else Cadence(c.times, c.last, false)
  }

  /** The timing state after a whole trace. */
  function Replay(events: seq<Event>, c: Cadence): Cadence
    decreases |events|
  {
    if events == [] then c else Tick(Replay(events[..|events| - 1], c), events[|events| - 1])
  }

  /** Replaying one more event is one more tick. */
  lemma ReplaySnoc(events: seq<Event>, n: nat, c: Cadence)
    requires n < |events|
    ensures Replay(events[..n + 1], c) == Tick(Replay(events[..n], c), events[n])
  {
    assert events[..n + 1][..n] == events[..n];
  }

  /** Replaying a trace only appends processed times. */
  lemma {:induction false} ReplayExtends(events: seq<Event>, c: Cadence)
    ensures |Replay(events, c).times| >= |c.times|
    ensures Replay(events, c).times[..|c.times|] == c.times
    decreases |events|
  {
    if events != [] {
      var init := Replay(events[..|events| - 1], c);
      ReplayExtends(events[..|events| - 1], c);
      assert init.times[..|c.times|] == c.times;
      var r := Replay(events, c);
      assert r.times == init.times || r.times == init.times + [events[|events| - 1].t];
      assert r.times[..|init.times|] == init.times;
      assert r.times[..|c.times|] == init.times[..|c.times|];
    }
  }

  /** Once the loop has stopped, the rest of the trace changes nothing. */
  lemma {:induction false} ReplayStopped(events: seq<Event>, n: nat, c: Cadence)
    requires n <= |events| && !Replay(events[..n], c).running
    ensures Replay(events, c) == Replay(events[..n], c)
    decreases |events|
  {
    if n < |events| {
      var init := events[..|events| - 1];
      assert init[..n] == events[..n];
      ReplayStopped(init, n, c);
    } else {
      assert events[..n] == events;
    }
  }

  /**
   * A successful reconnect restarts the interval at the reconnect time: a
   * frame 9 s later is dropped and one 10 s later is processed.
   */
  lemma ReconnectExample(c: Cadence, r: real, a: seq<PlateEvent>, b: seq<PlateEvent>)
    requires c.running
    ensures Replay([ReadFailed(true, r), FrameRead(r + 9.0, a), FrameRead(r + 10.0, b)], c)
            == Cadence(c.times + [r + 10.0], r + 10.0, true)
  {
    var events := [ReadFailed(true, r), FrameRead(r + 9.0, a), FrameRead(r + 10.0, b)];
    assert events[..0] == [];
    ReplaySnoc(events, 0, c);
    ReplaySnoc(events, 1, c);
    ReplaySnoc(events, 2, c);
    assert events[..3] == events;
  }

  /**
   * With a 10 s interval, frames 0, 3, 6, 9 and 11 s after the last
   * processing time yield exactly one processed frame, the one at 11 s.
   */
  lemma CadenceExample(s: real, a: seq<PlateEvent>, b: seq<PlateEvent>, c: seq<PlateEvent>,
                       d: seq<PlateEvent>, e: seq<PlateEvent>)
    ensures Replay([FrameRead(s, a), FrameRead(s + 3.0, b), FrameRead(s + 6.0, c),
                    FrameRead(s + 9.0, d), FrameRead(s + 11.0, e)], Cadence([], s, true))
            == Cadence([s + 11.0], s + 11.0, true)
  {
    var events := [FrameRead(s, a), FrameRead(s + 3.0, b), FrameRead(s + 6.0, c),
                   FrameRead(s + 9.0, d), FrameRead(s + 11.0, e)];
    var c0 := Cadence([], s, true);
    assert events[..0] == [];
    ReplaySnoc(events, 0, c0);
    ReplaySnoc(events, 1, c0);
    ReplaySnoc(events, 2, c0);
    ReplaySnoc(events, 3, c0);
    ReplaySnoc(events, 4, c0);
    assert events[..5] == events;
  }
}

=== FILE: meross_controller.dfy ===
/**
 * `MerossGarageController` of meross_controller.py: the gate in front of
 * the garage-door opener. It keeps the cloud session and the selected
 * device, re-initialises lazily, and refuses to open the door again within
 * a cooldown of the last successful open.
 *
 * Every remote call (authentication and discovery, the health probe, the
 * open and close commands, the logout) is an outcome parameter; the device's
 * online status at the moment of a call is a parameter too, and the
 * monotonic clock is read through explicit time arguments.
 */
module Meross {
  import opened Wrappers

  /** A device as discovery reports it. */
  datatype Device = Device(name: string, online: bool)

  /** How authentication, manager set-up and discovery in `initialize` end. */
  datatype InitOutcome =
    | AuthFailed                      // the login call raised; no new session exists
    | SetupFailed                     // logged in, then manager set-up or discovery raised
    | Discovered(devices: seq<Device>)

  /** `dev.online_status == ONLINE and dev.name == device_name` */
  predicate Selectable(d: Device, name: string)
  {
    d.online && d.name == name
  }

  /** Discovery went through and listed a selectable device. */
  predicate Finds(outcome: InitOutcome, name: string)
  {
    outcome.Discovered? && exists d :: d in outcome.devices && Selectable(d, name)
  }

  /**
   * The device scan of `initialize` (meross_controller.py, lines 54-61):
   * the first online device carrying the wanted name, or None.
   */
  method FindOnlineDevice(devices: seq<Device>, name: string) returns (found: Option<Device>)
    ensures found.None? <==> forall i :: 0 <= i < |devices| ==> !Selectable(devices[i], name)
    ensures found.Some? ==> exists i :: 0 <= i < |devices| && devices[i] == found.value &&
                                        Selectable(devices[i], name) &&
                                        forall j :: 0 <= j < i ==> !Selectable(devices[j], name)
  {
    found := None;
    var k := 0;
    while k < |devices|
      invariant 0 <= k <= |devices|
      invariant forall j :: 0 <= j < k ==> !Selectable(devices[j], name)
    {
      if devices[k].online && devices[k].name == name {
        found := Some(devices[k]);
        return;
      }
      k := k + 1;
    }
  }

  class MerossGarageController {
    const email: string
    const password: string
    const deviceName: string
    const cooldownSeconds: real

    /** `http_client is not None` and `manager is not None`. */
    var hasHttpClient: bool
    var hasManager: bool
    var garageDevice: Option<Device>
    /** `_initialized_successfully` */
    var initialized: bool
    /** Monotonic time of the last successful open, 0.0 before the first. */
    var lastOpenTime: real

    /** The times of the successful opens, oldest first. */
    ghost var opens: seq<real>
    /** How many times `initialize` went past its fast path and logged in again. */
    ghost var loginAttempts: nat

    /**
     * The state the class keeps: an initialised controller holds a device
     * and a session, the device held is the one configured, the last open
     * time is that of the last recorded open, and recorded opens are at
     * least a cooldown apart.
     */
    ghost predicate Valid()
      reads this
    {
      email != "" && password != "" && deviceName != "" &&
      (initialized ==> garageDevice.Some? && hasManager && hasHttpClient) &&
      (garageDevice.Some? ==> garageDevice.value.name == deviceName && hasManager && hasHttpClient) &&
      (if opens == [] then lastOpenTime == 0.0 else lastOpenTime == opens[|opens| - 1] > 0.0) &&
      (forall k :: 0 < k < |opens| ==> opens[k] - opens[k - 1] >= cooldownSeconds)
    }

    /** `__init__` for non-empty credentials (meross_controller.py, lines 14-27). */
    constructor (email: string, password: string, deviceName: string, cooldownSeconds: real)
      requires email != "" && password != "" && deviceName != ""
      ensures Valid()
      ensures this.email == email && this.password == password && this.deviceName == deviceName
      ensures this.cooldownSeconds == cooldownSeconds
      ensures !initialized && garageDevice == None && !hasManager && !hasHttpClient
      ensures lastOpenTime == 0.0 && opens == [] && loginAttempts == 0
    {
      this.email := email;
      this.password := password;
      this.deviceName := deviceName;
      this.cooldownSeconds := cooldownSeconds;
      hasHttpClient := false;
      hasManager := false;
      garageDevice := None;
      initialized := false;
      lastOpenTime := 0.0;
      opens := [];
      loginAttempts := 0;
    }

    /** `__init__`, where an empty email, password or device name raises ValueError (null here). */
    static method Create(email: string, password: string, deviceName: string, cooldownSeconds: real)
      returns (c: MerossGarageController?)
      ensures c == null <==> email == "" || password == "" || deviceName == ""
      ensures c != null ==> fresh(c) && c.Valid() && !c.initialized && c.lastOpenTime == 0.0 &&
                            c.deviceName == deviceName && c.cooldownSeconds == cooldownSeconds
    {
      if email == "" || password == "" || deviceName == "" {
        c := null;
      } else {
        c := new MerossGarageController(email, password, deviceName, cooldownSeconds);
      }
    }

    /**
     * `close_connection` (meross_controller.py, lines 153-166): logs out
     * when a manager exists (a failing logout is only reported) and always
     * drops the device, the manager, the client and the flag.
     */
    method CloseConnection() returns (loggedOut: bool)
      requires Valid()
      modifies this
      ensures Valid()
      ensures loggedOut == old(hasManager)
      ensures garageDevice == None && !hasManager && !hasHttpClient && !initialized
      ensures lastOpenTime == old(lastOpenTime) && opens == old(opens)
      ensures loginAttempts == old(loginAttempts)
    {
      loggedOut := hasManager;
      garageDevice := None;
      hasManager := false;
      hasHttpClient := false;
      initialized := false;
    }

    /** The session is usable as it stands: flag set, a device held and that device online. */
    predicate Ready(online: bool)
      reads this
    {
      initialized && garageDevice.Some? && online
    }

    /**
     * `initialize` (meross_controller.py, lines 29-78). `online` is the held
     * device's current status; `outcome` is how the login and discovery go.
     */
    method Initialize(online: bool, outcome: InitOutcome) returns (ok: bool)
      requires Valid()
      modifies this
      ensures Valid()
      ensures ok <==> initialized
      ensures old(Ready(online)) ==> ok && garageDevice == old(garageDevice) && hasManager &&
                                     loginAttempts == old(loginAttempts)
      ensures !old(Ready(online)) ==> loginAttempts == old(loginAttempts) + 1
      ensures !old(Ready(online)) ==>
                (ok <==> Finds(outcome, deviceName))
      ensures !ok ==> garageDevice == None && !hasManager && !hasHttpClient
      ensures ok && !old(Ready(online)) ==> garageDevice.Some? && garageDevice.value.online
      ensures lastOpenTime == old(lastOpenTime) && opens == old(opens)
    {
      if initialized && garageDevice.Some? && online {
        return true;
      }
      loginAttempts := loginAttempts + 1;
      match outcome {
        case AuthFailed =>
          var _ := CloseConnection();
          ok := false;
        case SetupFailed =>
          hasHttpClient, hasManager := true, true;
          var _ := CloseConnection();
          ok := false;
        case Discovered(devices) =>
          ok := SelectDevice(devices);
      }
    }

    /**
     * The part of `initialize` after a successful discovery (meross_controller.py,
     * lines 47-72): keep the first online device with the configured name,
     * or close the session when there is none.
     */
    method SelectDevice(devices: seq<Device>) returns (ok: bool)
      requires Valid()
      modifies this
      ensures Valid()
      ensures ok <==> initialized
      ensures ok <==> exists d :: d in devices && Selectable(d, deviceName)
      ensures ok ==> garageDevice.Some? && garageDevice.value.online && hasManager && hasHttpClient
      ensures !ok ==> garageDevice == None && !hasManager && !hasHttpClient
      ensures lastOpenTime == old(lastOpenTime) && opens == old(opens) && loginAttempts == old(loginAttempts)
    {
      hasHttpClient, hasManager := true, true;
      if |devices| == 0 {
        var _ := CloseConnection();
        return false;
      }
      var found := FindOnlineDevice(devices, deviceName);
      if found.Some? {
        garageDevice := found;
        initialized := true;
        ok := true;
      } else {
        var _ := CloseConnection();
        ok := false;
        assert forall d :: d in devices ==> !Selectable(d, deviceName) by {
          forall d | d in devices ensures !Selectable(d, deviceName) {
            var i :| 0 <= i < |devices| && devices[i] == d;
          }
        }
      }
    }

    /**
     * `_ensure_initialized` (meross_controller.py, lines 80-98): initialise
     * when not ready; otherwise probe the session, and on a failing probe
     * clear the flag and initialise once. `probeOk` is false when the
     * status request raises.
     */
    method EnsureInitialized(online: bool, probeOk: bool, reinit: InitOutcome) returns (ok: bool)
      requires Valid()
      modifies this
      ensures Valid()
      ensures ok <==> initialized
      ensures old(Ready(online)) && probeOk ==> ok && unchanged(this)
      ensures !old(Ready(online)) || !probeOk ==> loginAttempts == old(loginAttempts) + 1
      ensures !old(Ready(online)) || !probeOk ==>
                (ok <==> Finds(reinit, deviceName))
      ensures !ok ==> garageDevice == None && !hasManager && !hasHttpClient
      ensures lastOpenTime == old(lastOpenTime) && opens == old(opens)
    {
      if !initialized || garageDevice.None? || !online {
        ok := Initialize(online, reinit);
        return;
      }
      if !probeOk {
        initialized := false;
        ok := Initialize(online, reinit);
        return;
      }
      ok := true;
    }

    /**
     * `_can_open_door` at monotonic time `now` (meross_controller.py, lines
     * 100-104): never opened, or the cooldown has run out.
     */
    predicate CanOpenDoor(now: real): (r: bool)
      reads this
      ensures Valid() ==> (r <==> opens == [] || now - opens[|opens| - 1] >= cooldownSeconds)
    {
      lastOpenTime <= 0.0 || now - lastOpenTime >= cooldownSeconds
    }

    /**
     * `open_door` (meross_controller.py, lines 110-135). The clock is read
     * twice: at `checkTime` for the cooldown and at `recordTime` after the
     * command went through. `openOk` is false when the open command raises.
     */
    method OpenDoor(checkTime: real, recordTime: real, online: bool, probeOk: bool, reinit: InitOutcome,
                    openOk: bool) returns (ok: bool)
      requires Valid()
      requires 0.0 < checkTime <= recordTime
      modifies this
      ensures Valid()
      ensures !old(CanOpenDoor(checkTime)) ==> !ok && unchanged(this)
      ensures ok ==> old(CanOpenDoor(checkTime)) && openOk && lastOpenTime == recordTime &&
                     opens == old(opens) + [recordTime]
      ensures !ok ==> lastOpenTime == old(lastOpenTime) && opens == old(opens)
      ensures old(CanOpenDoor(checkTime)) && old(Ready(online)) && probeOk ==> (ok <==> openOk)
      ensures old(CanOpenDoor(checkTime)) && (!old(Ready(online)) || !probeOk) ==>
                (ok <==> openOk && Finds(reinit, deviceName))
      ensures ok ==> initialized && garageDevice.Some?
      ensures !ok && old(CanOpenDoor(checkTime)) ==> !initialized
      ensures old(CanOpenDoor(checkTime)) && (!old(Ready(online)) || !probeOk) ==>
                loginAttempts == old(loginAttempts) + 1
      ensures old(Ready(online)) && probeOk ==> loginAttempts == old(loginAttempts)
      ensures old(CanOpenDoor(checkTime)) && (!old(Ready(online)) || !probeOk) && !Finds(reinit, deviceName) ==>
                garageDevice == None && !hasManager && !hasHttpClient
    {
      if !CanOpenDoor(checkTime) {
        return false;
      }
      var ready := EnsureInitialized(online, probeOk, reinit);
      if !ready {
        return false;
      }
      if openOk {
        lastOpenTime := recordTime;
        opens := opens + [recordTime];
        ok := true;
      } else {
        initialized := false;
        ok := false;
      }
    }

    /**
     * `close_door` (meross_controller.py, lines 137-151): no cooldown, and
     * the open time is never touched. `closeOk` is false when the close
     * command raises.
     */
    method CloseDoor(online: bool, probeOk: bool, reinit: InitOutcome, closeOk: bool) returns (ok: bool)
      requires Valid()
      modifies this
      ensures Valid()
      ensures ok ==> closeOk && initialized
      ensures !ok ==> !initialized
      ensures old(Ready(online)) && probeOk ==> (ok <==> closeOk)
      ensures !old(Ready(online)) || !probeOk ==> (ok <==> closeOk && Finds(reinit, deviceName))
      ensures lastOpenTime == old(lastOpenTime) && opens == old(opens)
      ensures !old(Ready(online)) || !probeOk ==> loginAttempts == old(loginAttempts) + 1
      ensures old(Ready(online)) && probeOk ==> loginAttempts == old(loginAttempts)
      ensures (!old(Ready(online)) || !probeOk) && !Finds(reinit, deviceName) ==>
                garageDevice == None && !hasManager && !hasHttpClient
    {
      var ready := EnsureInitialized(online, probeOk, reinit);
      if !ready {
        return false;
      }
      if closeOk {
        ok := true;
      } else {
        initialized := false;
        ok := false;
      }
    }
  }

  /**
   * Two successful opens of one controller are at least a cooldown apart,
   * whatever happened between them.
   */
  lemma {:induction false} OpensSpaced(c: MerossGarageController, i: nat, j: nat)
    requires c.Valid() && i < j < |c.opens|
    ensures c.opens[j] - c.opens[i] >= c.cooldownSeconds * (j - i) as real
    decreases j - i
  {
    if j > i + 1 {
      OpensSpaced(c, i, j - 1);
    }
  }

  /** Before the first open, and once the cooldown is over, the door may be opened. */
  lemma CooldownWindow(c: MerossGarageController, now: real)
    requires c.Valid()
    ensures c.opens == [] ==> c.CanOpenDoor(now)
    ensures c.opens != [] ==> (c.CanOpenDoor(now) <==> now - c.opens[|c.opens| - 1] >= c.cooldownSeconds)
  {
  }
}

=== FILE: ocr_result.dfy ===
/**
 * The parse-and-normalise half of `read_license_plate` in util.py: the
 * recogniser's raw result, whatever shape it has, is probed for a text and
 * a score, the text has the special characters stripped, and the score is
 * converted to a number when it can be.
 *
 * The recogniser itself is not modelled: its result is an input value, or
 * `None` when the call raised.
 */
module OcrResult {
  import opened Wrappers

  /** The Python values the shape dispatch can meet. */
  datatype Value =
    | Str(s: string)
    | Num(x: real)
    | Bool(b: bool)
    | NoneVal
    | Items(items: seq<Value>)          // a list or a tuple
    | Dict(entries: map<string, Value>)
    | Other                             // any other object

  /** Python truthiness, which decides where an `or` chain stops. */
  predicate Truthy(v: Value)
  {
    match v
    case Str(s) => s != ""
    case Num(x) => x != 0.0
    case Bool(b) => b
    case NoneVal => false
    case Items(items) => items != []
    case Dict(entries) => entries != map[]
    case Other => true
  }

  /** `d.get(key)`: the value stored under `key`, or None. */
  function Get(d: map<string, Value>, key: string): (v: Value)
    ensures key in d ==> v == d[key]
    ensures key !in d ==> v == NoneVal
  {
    if key in d then d[key] else NoneVal
  }

  /** Python `x or y`: `x` when it is truthy, `y` otherwise. */
  function Or(x: Value, y: Value): (v: Value)
    ensures v == x || v == y
    ensures Truthy(x) <==> Truthy(v) && v == x
    ensures !Truthy(x) ==> v == y
  {
    if Truthy(x) then x else y
  }

  /** `get("text") or get("plate") or get("license_plate")` */
  function TextOf(d: map<string, Value>): Value
  {
    Or(Or(Get(d, "text"), Get(d, "plate")), Get(d, "license_plate"))
  }

  /** `get("score") or get("confidence") or get("prob")` */
  function ScoreOf(d: map<string, Value>): Value
  {
    Or(Or(Get(d, "score"), Get(d, "confidence")), Get(d, "prob"))
  }

  /** The text and the score found in a raw result, each possibly None. */
  datatype Probe = Probe(text: Value, score: Value)

  /**
   * The shape dispatch (util.py, lines 391-421): a non-empty list or tuple
   * is judged by its first element (a string, a dict, or a `(text, score)`
   * or `(bbox, text, score)` tuple); a dict is looked up directly; anything
   * else yields no text.
   */
  function Extract(result: Value): (p: Probe)
    ensures p.text != NoneVal ==>
              p.text.Str? || result.Dict? || (result.Items? && |result.items| > 0 && result.items[0].Dict?)
  {
    match result
    case Items(items) =>
      if |items| == 0 then Probe(NoneVal, NoneVal)
      else
        var first := items[0];
        (match first
         case Str(_) => Probe(first, NoneVal)
         case Dict(d) => Probe(TextOf(d), ScoreOf(d))
         case Items(t) =>
           if |t| >= 2 && t[0].Str? then Probe(t[0], t[1])
           else if |t| >= 3 && t[1].Str? then Probe(t[1], t[2])
           else Probe(NoneVal, NoneVal)
         case _ => Probe(NoneVal, NoneVal))
    case Dict(d) => Probe(TextOf(d), ScoreOf(d))
    case _ => Probe(NoneVal, NoneVal)
  }

  /** `special_characters` (util.py, lines 14-49); "." is listed twice there. */
  const SpecialCharacters: set<char> :=
    {'-', ' ', '.', '\'', '"', '`', '~', '!', '@', '#', '$', '%', '^', '&', '*', '(', ')', '_',
     '+', '=', '{', '}', '[', ']', '|', '\\', ':', ';', '<', '>', ',', '/', '?'}

  predicate NoSpecial(s: string)
  {
    forall i :: 0 <= i < |s| ==> s[i] !in SpecialCharacters
  }

  /** `"".join(char for char in text if char not in special_characters)` */
  function Strip(s: string): (r: string)
    ensures NoSpecial(r)
    ensures |r| <= |s|
    ensures forall c :: c !in SpecialCharacters ==> multiset(r)[c] == multiset(s)[c]
    ensures forall c :: c in SpecialCharacters ==> multiset(r)[c] == 0
  {
    if |s| == 0 then ""
    else if s[0] in SpecialCharacters then
      assert s == [s[0]] + s[1..];
      Strip(s[1..])
    else
      assert s == [s[0]] + s[1..];
      [s[0]] + Strip(s[1..])
  }

  /** `r` can be obtained from `s` by deleting characters. */
  predicate IsSubsequence(r: string, s: string)
    decreases |s|
  {
    if |r| == 0 then true
    else if |s| == 0 then false
    else if r[0] == s[0] then IsSubsequence(r[1..], s[1..])
    else IsSubsequence(r, s[1..])
  }

  /** Stripping only deletes characters: the rest keep their order. */
  lemma {:induction false} StripIsSubsequence(s: string)
    ensures IsSubsequence(Strip(s), s)
  {
    if |s| > 0 {
      StripIsSubsequence(s[1..]);
      if s[0] !in SpecialCharacters {
        var r := Strip(s);
        assert r[0] == s[0] && r[1..] == Strip(s[1..]);
      } else {
        SubsequenceOfTail(Strip(s[1..]), s);
      }
    }
  }

  /** A subsequence of the tail is a subsequence of the whole. */
  lemma {:induction false} SubsequenceOfTail(r: string, s: string)
    requires |s| > 0 && IsSubsequence(r, s[1..])
    ensures IsSubsequence(r, s)
    decreases |s|, 1
  {
    if |r| > 0 && r[0] == s[0] {
      SubsequenceDropHead(r, s[1..]);
    }
  }

  /** Dropping the first character of a subsequence leaves a subsequence. */
  lemma {:induction false} SubsequenceDropHead(r: string, t: string)
    requires |r| > 0 && IsSubsequence(r, t)
    ensures IsSubsequence(r[1..], t)
    decreases |t| + 1, 0
  {
    if r[0] == t[0] {
      SubsequenceOfTail(r[1..], t);
    } else {
      SubsequenceDropHead(r, t[1..]);
      SubsequenceOfTail(r[1..], t);
    }
  }

  /** Text without special characters is left as it is. */
  lemma {:induction false} StripKeepsClean(s: string)
    requires NoSpecial(s)
    ensures Strip(s) == s
  {
    if |s| > 0 {
      StripKeepsClean(s[1..]);
      assert s == [s[0]] + s[1..];
    }
  }

  /** Stripping twice is stripping once. */
  lemma StripIdempotent(s: string)
    ensures Strip(Strip(s)) == Strip(s)
  {
    StripKeepsClean(Strip(s));
  }

  /** What `read_license_plate` returns: the text and the score, each possibly None. */
  datatype Recognition = Recognition(text: Option<string>, score: Option<real>)

  /**
   * `str(v)`: the string itself for a string; `renderOther` stands for the
   * conversion of every other value, which is Python's and not modelled.
   */
  function Render(v: Value, renderOther: Value -> string): string
  {
    if v.Str? then v.s else renderOther(v)
  }

  /**
   * `float(score) if score is not None else None`, where a conversion that
   * raises gives None. A number converts to itself; `parseFloat` stands for
   * Python's conversion of every other value (None when it raises).
   */
  function ScoreValue(score: Value, parseFloat: Value -> Option<real>): (r: Option<real>)
    ensures score == NoneVal ==> r == None
    ensures score.Num? ==> r == Some(score.x)
  {
    match score
    case NoneVal => None
    case Num(x) => Some(x)
    case _ => parseFloat(score)
  }

  /**
   * The parse-and-normalise part of `read_license_plate` (util.py, lines
   * 387-439). `run` is the recogniser's result, or None when it raised.
   */
  function ReadLicensePlate(run: Option<Value>, removeSpecialCharacters: bool,
                            renderOther: Value -> string, parseFloat: Value -> Option<real>): (r: Recognition)
    ensures r.text == None ==> r.score == None
    ensures r.text == None <==> run == None || Extract(run.value).text == NoneVal
    ensures r.text != None && removeSpecialCharacters ==> NoSpecial(r.text.value)
  {
    if run == None then Recognition(None, None)
    else
      var probe := Extract(run.value);
      if probe.text == NoneVal then Recognition(None, None)
      else
        var raw := Render(probe.text, renderOther);
        var normalized := if removeSpecialCharacters then Strip(raw) else raw;
        Recognition(Some(normalized), ScoreValue(probe.score, parseFloat))
  }

  /** The text returned is the recognised text with the special characters removed, in order. */
  lemma ReadTextIsStrippedSubsequence(run: Option<Value>, renderOther: Value -> string,
                                      parseFloat: Value -> Option<real>)
    requires run != None && Extract(run.value).text != NoneVal
    ensures var r := ReadLicensePlate(run, true, renderOther, parseFloat);
            var raw := Render(Extract(run.value).text, renderOther);
            r.text == Some(Strip(raw)) && IsSubsequence(r.text.value, raw) &&
            Strip(r.text.value) == r.text.value
  {
    var raw := Render(Extract(run.value).text, renderOther);
    StripIsSubsequence(raw);
    StripIdempotent(raw);
  }

  /** A list whose first element is a string gives that string, stripped, and no score. */
  lemma StringListResult(s: string, rest: seq<Value>, removeSpecialCharacters: bool,
                         renderOther: Value -> string, parseFloat: Value -> Option<real>)
    ensures ReadLicensePlate(Some(Items([Str(s)] + rest)), removeSpecialCharacters, renderOther, parseFloat)
         == Recognition(Some(if removeSpecialCharacters then Strip(s) else s), None)
  {
  }

  /**
   * The usual shape: a dict, bare or first in a list, whose "text" is a
   * non-empty string gives that string (stripped when asked) and the score
   * found under "score", "confidence" or "prob".
   */
  lemma DictWithText(d: map<string, Value>, s: string, rest: seq<Value>, removeSpecialCharacters: bool,
                     renderOther: Value -> string, parseFloat: Value -> Option<real>)
    requires "text" in d && d["text"] == Str(s) && s != ""
    ensures ReadLicensePlate(Some(Dict(d)), removeSpecialCharacters, renderOther, parseFloat)
         == Recognition(Some(if removeSpecialCharacters then Strip(s) else s), ScoreValue(ScoreOf(d), parseFloat))
    ensures ReadLicensePlate(Some(Items([Dict(d)] + rest)), removeSpecialCharacters, renderOther, parseFloat)
         == ReadLicensePlate(Some(Dict(d)), removeSpecialCharacters, renderOther, parseFloat)
  {
  }

  /**
   * A dict whose "text" entry is missing or falsy (an empty string, 0)
   * falls through to "plate"; a "score" of 0 falls through to
   * "confidence".
   */
  lemma DictFallThrough(d: map<string, Value>)
    requires !Truthy(Get(d, "text")) && Truthy(Get(d, "plate"))
    requires !Truthy(Get(d, "score"))
    ensures Extract(Dict(d)) == Probe(Get(d, "plate"), Or(Get(d, "confidence"), Get(d, "prob")))
  {
  }

  /** When no key holds a truthy text, the last lookup decides: a missing "license_plate" means no text. */
  lemma DictWithoutText(d: map<string, Value>, run: Option<Value>, removeSpecialCharacters: bool,
                        renderOther: Value -> string, parseFloat: Value -> Option<real>)
    requires !Truthy(Get(d, "text")) && !Truthy(Get(d, "plate")) && "license_plate" !in d
    requires run == Some(Dict(d)) || run == Some(Items([Dict(d)]))
    ensures ReadLicensePlate(run, removeSpecialCharacters, renderOther, parseFloat) == Recognition(None, None)
  {
  }

  /** The `(text, score)` and `(bbox, text, score)` tuple shapes. */
  lemma TupleResults(text: string, score: Value, bbox: Value, rest: seq<Value>)
    ensures Extract(Items([Items([Str(text), score] + rest)])) == Probe(Str(text), score)
    ensures !bbox.Str? ==> Extract(Items([Items([bbox, Str(text), score] + rest)])) == Probe(Str(text), score)
  {
    var t := [bbox, Str(text), score] + rest;
    assert t[0] == bbox && t[1] == Str(text) && t[2] == score;
  }

  /** An empty list, a bare string or a number carries no text. */
  lemma NoTextShapes(s: string, x: real)
    ensures Extract(Items([])).text == NoneVal
    ensures Extract(Str(s)).text == NoneVal
    ensures Extract(Num(x)).text == NoneVal
  {
  }

  /** A score that cannot be converted becomes None and does not lose the text. */
  lemma UnconvertibleScore(run: Option<Value>, removeSpecialCharacters: bool,
                           renderOther: Value -> string, parseFloat: Value -> Option<real>)
    requires run != None && Extract(run.value).text != NoneVal
    requires !Extract(run.value).score.Num? && parseFloat(Extract(run.value).score) == None
    ensures ReadLicensePlate(run, removeSpecialCharacters, renderOther, parseFloat).score == None
    ensures ReadLicensePlate(run, removeSpecialCharacters, renderOther, parseFloat).text != None
  {
  }
}

=== FILE: plate_text.dfy ===
/**
 * Plate-text rules of util.py: ASCII upper-casing, the two OCR character
 * maps, the Australian plate-format validator and the letter/digit swap
 * canonicaliser `format_license`.
 */
module PlateText {

  /** Python's str.upper() on the ASCII range; every other character is kept. */
  function UpperChar(c: char): (r: char)
  {
    if 'a' <= c <= 'z' then (c as int - 32) as char else c
  }

  /** No character of `s` is a lower-case ASCII letter. */
  predicate NoLowerCase(s: string)
  {
    forall i :: 0 <= i < |s| ==> !('a' <= s[i] <= 'z')
  }

  /**
   * `str.upper()`: the result has no lower-case ASCII letter, each lower-case
   * letter becomes its capital, and every other character stays where it is.
   */
  function Upper(s: string): (r: string)
    ensures |r| == |s|
    ensures NoLowerCase(r)
    ensures forall i :: 0 <= i < |s| && 'a' <= s[i] <= 'z' ==> r[i] as int == s[i] as int - 32 && 'A' <= r[i] <= 'Z'
    ensures forall i :: 0 <= i < |s| && !('a' <= s[i] <= 'z') ==> r[i] == s[i]
  {
    seq(|s|, i requires 0 <= i < |s| => UpperChar(s[i]))
  }

  lemma UpperIdempotent(s: string)
    ensures Upper(Upper(s)) == Upper(s)
  {
    assert forall i :: 0 <= i < |s| ==> UpperChar(UpperChar(s[i])) == UpperChar(s[i]);
  }

  /** dict_char_to_int: the letters an OCR engine reads in place of a digit. */
  predicate InCharToInt(c: char)
  {
    c in {'O', 'I', 'J', 'A', 'G', 'S'}
  }

  /** dict_int_to_char: the digits an OCR engine reads in place of a letter. */
  predicate InIntToChar(c: char)
  {
    c in {'0', '1', '3', '4', '6', '5'}
  }

  function CharToInt(c: char): (r: char)
    requires InCharToInt(c)
    ensures InIntToChar(r)
  {
    match c
    case 'O' => '0'
    case 'I' => '1'
    case 'J' => '3'
    case 'A' => '4'
    case 'G' => '6'
    case _ => '5'
  }

  function IntToChar(c: char): (r: char)
    requires InIntToChar(c)
    ensures InCharToInt(r)
  {
    match c
    case '0' => 'O'
    case '1' => 'I'
    case '3' => 'J'
    case '4' => 'A'
    case '6' => 'G'
    case _ => 'S'
  }

  /** The two maps are each other's inverse. */
  lemma CharMapsInverse(c: char)
    ensures InCharToInt(c) ==> IntToChar(CharToInt(c)) == c
    ensures InIntToChar(c) ==> CharToInt(IntToChar(c)) == c
  {
  }

  // ---------------------------------------------------------------------
  // license_complies_format
  // ---------------------------------------------------------------------

  /** `is_letter`: an upper-case ASCII letter, or a digit that OCR confuses with one. */
  predicate IsLetter(c: char)
  {
    'A' <= c <= 'Z' || InIntToChar(c)
  }

  /** `is_digit`: an ASCII digit, or a letter that OCR confuses with one. */
  predicate IsDigit(c: char)
  {
    '0' <= c <= '9' || InCharToInt(c)
  }

  /** The validator as written: a length check followed by six positional tests. */
  function LicenseCompliesFormat(text: string): (r: bool)
    ensures r ==> |text| == 6
  {
    if |text| != 6 then false
    else if IsLetter(text[0]) && IsLetter(text[1]) && IsLetter(text[2])
         && IsDigit(text[3]) && IsDigit(text[4]) && IsDigit(text[5]) then true   // LLLNNN
    else if IsDigit(text[0]) && IsDigit(text[1]) && IsDigit(text[2])
         && IsLetter(text[3]) && IsLetter(text[4]) && IsLetter(text[5]) then true // NNNLLL
    else if IsLetter(text[0]) && IsLetter(text[1]) && IsDigit(text[2])
         && IsDigit(text[3]) && IsLetter(text[4]) && IsLetter(text[5]) then true  // LLNNLL
    else if IsLetter(text[0]) && IsLetter(text[1]) && IsDigit(text[2])
         && IsLetter(text[3]) && IsLetter(text[4]) && IsLetter(text[5]) then true // LLNLLL
    else if IsDigit(text[0]) && IsLetter(text[1]) && IsLetter(text[2])
         && IsLetter(text[3]) && IsLetter(text[4]) && IsLetter(text[5]) then true // NLLLLL
    else IsLetter(text[0]) && IsLetter(text[1]) && IsLetter(text[2])
         && IsDigit(text[3]) && IsLetter(text[4]) && IsDigit(text[5])            // LLLNLN
  }

  /** The accepted layouts, one 'L' (letter) or 'N' (digit) per position. */
  const Layouts: seq<string> := ["LLLNNN", "NNNLLL", "LLNNLL", "LLNLLL", "NLLLLL", "LLLNLN"]

  /** Reference reading of a layout: position by position, 'L' asks for a letter, anything else for a digit. */
  predicate FitsLayout(text: string, layout: string)
    requires |text| == |layout|
  {
    forall i :: 0 <= i < |text| ==> IsLetterOrDigitAt(text, layout, i)
  }

  /**
   * The examples in the comments of `license_complies_format`: "1ASHFH"
   * (NLLLLL) and "ABC1D2" (LLLNLN) comply, but "ASD9FH", the example given
   * for the LLNLLL check, does not: its third character 'D' is neither a
   * digit nor a letter that OCR confuses with one, and no other layout fits.
   */
  lemma LayoutCommentExamples()
    ensures LicenseCompliesFormat("1ASHFH") && LicenseCompliesFormat("ABC1D2")
    ensures !LicenseCompliesFormat("ASD9FH")
  {
  }

  /** Position `i` of `text` is of the class that position `i` of `layout` asks for. */
  predicate IsLetterOrDigitAt(text: string, layout: string, i: int)
    requires 0 <= i < |text| && |text| == |layout|
  {
    if layout[i] == 'L' then IsLetter(text[i]) else IsDigit(text[i])
  }

  /** The validator accepts exactly the six-character texts that fit one of the layouts. */
  lemma LicenseCompliesFormatIffLayout(text: string)
    ensures LicenseCompliesFormat(text) <==>
            |text| == 6 && exists k :: 0 <= k < |Layouts| && |Layouts[k]| == 6 && FitsLayout(text, Layouts[k])
  {
    if |text| == 6 {
      forall k | 0 <= k < |Layouts|
        ensures |Layouts[k]| == 6 && (FitsLayout(text, Layouts[k]) <==> WitnessLayout(text, k))
      {
        LayoutUnfold(text, k);
      }
      assert LicenseCompliesFormat(text) <==>
        WitnessLayout(text, 0) || WitnessLayout(text, 1) || WitnessLayout(text, 2) ||
        WitnessLayout(text, 3) || WitnessLayout(text, 4) || WitnessLayout(text, 5);
    }
  }

  /** Layout `k`, written out as the six positional tests of the source. */
  predicate WitnessLayout(text: string, k: int)
    requires |text| == 6
  {
    match k
    case 0 => IsLetter(text[0]) && IsLetter(text[1]) && IsLetter(text[2]) && IsDigit(text[3]) && IsDigit(text[4]) && IsDigit(text[5])
    case 1 => IsDigit(text[0]) && IsDigit(text[1]) && IsDigit(text[2]) && IsLetter(text[3]) && IsLetter(text[4]) && IsLetter(text[5])
    case 2 => IsLetter(text[0]) && IsLetter(text[1]) && IsDigit(text[2]) && IsDigit(text[3]) && IsLetter(text[4]) && IsLetter(text[5])
    case 3 => IsLetter(text[0]) && IsLetter(text[1]) && IsDigit(text[2]) && IsLetter(text[3]) && IsLetter(text[4]) && IsLetter(text[5])
    case 4 => IsDigit(text[0]) && IsLetter(text[1]) && IsLetter(text[2]) && IsLetter(text[3]) && IsLetter(text[4]) && IsLetter(text[5])
    case 5 => IsLetter(text[0]) && IsLetter(text[1]) && IsLetter(text[2]) && IsDigit(text[3]) && IsLetter(text[4]) && IsDigit(text[5])
    case _ => false
  }

  lemma LayoutUnfold(text: string, k: int)
    requires |text| == 6 && 0 <= k < |Layouts|
    ensures |Layouts[k]| == 6
    ensures FitsLayout(text, Layouts[k]) <==> WitnessLayout(text, k)
  {
    var l := Layouts[k];
    assert |l| == 6;
    if WitnessLayout(text, k) {
      forall i | 0 <= i < 6 ensures IsLetterOrDigitAt(text, l, i) { }
    } else {
      assert !(IsLetterOrDigitAt(text, l, 0) && IsLetterOrDigitAt(text, l, 1) && IsLetterOrDigitAt(text, l, 2)
               && IsLetterOrDigitAt(text, l, 3) && IsLetterOrDigitAt(text, l, 4) && IsLetterOrDigitAt(text, l, 5));
    }
  }

  // ---------------------------------------------------------------------
  // format_license
  // ---------------------------------------------------------------------

  /** One pass of the final loop of `format_license` over an upper-cased character. */
  function SwapChar(c: char): (r: char)
  {
    if InCharToInt(c) then CharToInt(c)
    else if InIntToChar(c) then IntToChar(c)
    else c
  }

  /** What `format_license` returns. */
  function Canonical(text: string): (r: string)
  {
    if |text| != 6 then text
    else seq(6, i requires 0 <= i < 6 => SwapChar(UpperChar(text[i])))
  }

  /**
   * format_license: texts whose length is not 6 come back unchanged; a
   * six-character text is upper-cased and every character is passed once
   * through the letter/digit swap.
   */
  method FormatLicense(text: string) returns (finalPlate: string)
    ensures finalPlate == Canonical(text)
    ensures |text| != 6 ==> finalPlate == text
    ensures |finalPlate| == |text|
    ensures |text| == 6 ==> forall i :: 0 <= i < 6 ==> finalPlate[i] == SwapChar(Upper(text)[i])
  {
    if |text| != 6 {
      return text;
    }
    var upper := Upper(text);
    finalPlate := "";
    var i := 0;
    while i < |upper|
      invariant 0 <= i <= |upper|
      invariant |finalPlate| == i
      invariant forall k :: 0 <= k < i ==> finalPlate[k] == SwapChar(upper[k])
    {
      var c := upper[i];
      if InCharToInt(c) {
        finalPlate := finalPlate + [CharToInt(c)];
      } else if InIntToChar(c) {
        // every key of dict_int_to_char is a digit, so `isdigit()` always holds here
        finalPlate := finalPlate + [IntToChar(c)];
      } else {
        finalPlate := finalPlate + [c];
      }
      i := i + 1;
    }
  }

  /** The swap is its own inverse. */
  lemma SwapCharInvolutive(c: char)
    ensures SwapChar(SwapChar(c)) == c
  {
  }

  /** A six-character canonical plate has no lower-case letter. */
  lemma CanonicalNoLowerCase(text: string)
    requires |text| == 6
    ensures NoLowerCase(Canonical(text))
  {
  }

  /** Canonicalising twice gives back the upper-cased plate: the swap undoes itself. */
  lemma CanonicalTwice(text: string)
    ensures |text| == 6 ==> Canonical(Canonical(text)) == Upper(text)
    ensures |text| != 6 ==> Canonical(Canonical(text)) == text
  {
    if |text| == 6 {
      var once := Canonical(text);
      forall i | 0 <= i < 6 ensures Canonical(once)[i] == Upper(text)[i] {
        assert UpperChar(once[i]) == once[i];
        SwapCharInvolutive(UpperChar(text[i]));
      }
    }
  }

  /** The swap never moves a character in or out of the letter or digit class. */
  lemma SwapKeepsClasses(c: char)
    ensures IsLetter(SwapChar(c)) == IsLetter(c)
    ensures IsDigit(SwapChar(c)) == IsDigit(c)
  {
  }

  /**
   * Canonicalising a six-character plate does not change whether it
   * complies with a plate format: the validator sees the swapped text the
   * same way it sees the upper-cased one.
   */
  lemma CanonicalKeepsCompliance(text: string)
    requires |text| == 6
    ensures LicenseCompliesFormat(Canonical(text)) == LicenseCompliesFormat(Upper(text))
  {
    var c := Canonical(text);
    var u := Upper(text);
    forall i | 0 <= i < 6
      ensures IsLetter(c[i]) == IsLetter(u[i]) && IsDigit(c[i]) == IsDigit(u[i])
    {
      SwapKeepsClasses(u[i]);
    }
  }
}

=== FILE: similarity.dfy ===
/**
 * The custom string similarity of util.py: a Levenshtein distance whose
 * substitution cost is 0 for equal characters, 0.3 for an OCR-confusable
 * pair and 1.0 otherwise, a similarity score in [0, 1] derived from it, and
 * the whitelist test built on that score.
 *
 * Costs are kept in tenths so that they are exact: an insertion, a
 * deletion or a plain substitution costs 10, a confusable substitution 3.
 */
module Similarity {
  import opened PlateText

  /** Cost of an insertion, a deletion or a plain substitution (1.0), in tenths. */
  const EditCost: nat := 10
  /** CONFUSABLE_SUBSTITUTION_COST (0.3), in tenths. */
  const ConfusableCost: nat := 3

  /**
   * CONFUSABLE_PAIRS, as the sorted pairs `(x, y)` with `x < y` that the
   * source stores: 0/O, 1/I, 3/J, 4/A, 6/G, 5/S, 8/B and H/M.
   */
  predicate IsConfusableSorted(x: char, y: char)
  {
    (x == '0' && y == 'O') || (x == '1' && y == 'I') || (x == '3' && y == 'J') ||
    (x == '4' && y == 'A') || (x == '6' && y == 'G') || (x == '5' && y == 'S') ||
    (x == '8' && y == 'B') || (x == 'H' && y == 'M')
  }

  /** The pair lookup of the DP step: the pair is sorted before it is looked up. */
  predicate Confusable(a: char, b: char)
  {
    if a <= b then IsConfusableSorted(a, b) else IsConfusableSorted(b, a)
  }

  /** Substitution cost of the DP step (util.py, lines 494-498), in tenths. */
  function SubCost(a: char, b: char): (c: nat)
    ensures c == 0 <==> a == b
    ensures c <= EditCost
  {
    if a == b then 0
    else if Confusable(a, b) then ConfusableCost
    else EditCost
  }

  lemma SubCostSymmetric(a: char, b: char)
    ensures SubCost(a, b) == SubCost(b, a)
  {
  }

  function Min3(x: nat, y: nat, z: nat): nat
  {
    if x <= y && x <= z then x else if y <= z then y else z
  }

  lemma Min3Swap(x: nat, y: nat, z: nat)
    ensures Min3(x, y, z) == Min3(y, x, z)
  {
  }

  function Max(x: nat, y: nat): (m: nat)
    ensures m >= x && m >= y && (m == x || m == y)
  {
    if x >= y then x else y
  }

  /**
   * The weighted edit distance between the prefixes `a[..i]` and `b[..j]`,
   * in tenths, as the usual recurrence on their last characters: delete the
   * last character of `a[..i]`, insert the last character of `b[..j]`, or
   * substitute one for the other.
   */
  function PrefixDist(a: string, b: string, i: nat, j: nat): nat
    requires i <= |a| && j <= |b|
    decreases i + j
  {
    if i == 0 then EditCost * j
    else if j == 0 then EditCost * i
    else Min3(PrefixDist(a, b, i - 1, j) + EditCost,
              PrefixDist(a, b, i, j - 1) + EditCost,
              PrefixDist(a, b, i - 1, j - 1) + SubCost(a[i - 1], b[j - 1]))
  }

  /** The weighted edit distance between two whole strings, in tenths. */
  function Dist(a: string, b: string): nat
  {
    PrefixDist(a, b, |a|, |b|)
  }

  /** The distance between `a[..i]` and `b[..j]` equals the one between `b[..j]` and `a[..i]`. */
  predicate SymmetricAt(a: string, b: string, i: nat, j: nat)
    requires i <= |a| && j <= |b|
  {
    PrefixDist(a, b, i, j) == PrefixDist(b, a, j, i)
  }

  /** The prefix distance does not depend on which string is taken as the rows of the table. */
  lemma {:induction false} PrefixDistSymmetric(a: string, b: string, i: nat, j: nat)
    requires i <= |a| && j <= |b|
    ensures SymmetricAt(a, b, i, j)
    decreases i + j
  {
    if i != 0 && j != 0 {
      PrefixDistSymmetric(a, b, i - 1, j);
      PrefixDistSymmetric(a, b, i, j - 1);
      PrefixDistSymmetric(a, b, i - 1, j - 1);
      SubCostSymmetric(a[i - 1], b[j - 1]);
      Min3Swap(PrefixDist(a, b, i - 1, j) + EditCost, PrefixDist(a, b, i, j - 1) + EditCost,
               PrefixDist(a, b, i - 1, j - 1) + SubCost(a[i - 1], b[j - 1]));
    }
  }

  /** The recurrence, for two non-empty prefixes. */
  lemma PrefixDistUnfold(a: string, b: string, i: nat, j: nat)
    requires 0 < i <= |a| && 0 < j <= |b|
    ensures PrefixDist(a, b, i, j) ==
            Min3(PrefixDist(a, b, i - 1, j) + EditCost,
                 PrefixDist(a, b, i, j - 1) + EditCost,
                 PrefixDist(a, b, i - 1, j - 1) + SubCost(a[i - 1], b[j - 1]))
  {
  }

  lemma DistSymmetric(a: string, b: string)
    ensures Dist(a, b) == Dist(b, a)
  {
    PrefixDistSymmetric(a, b, |a|, |b|);
  }

  /** Two prefixes are at distance 0 exactly when they are equal. */
  lemma {:induction false} PrefixDistZeroIff(a: string, b: string, i: nat, j: nat)
    requires i <= |a| && j <= |b|
    ensures PrefixDist(a, b, i, j) == 0 <==> i == j && forall k :: 0 <= k < i ==> a[k] == b[k]
    decreases i + j
  {
    if i != 0 && j != 0 {
      PrefixDistZeroIff(a, b, i - 1, j - 1);
    }
  }

  /** Equal strings are at distance 0, and only they are. */
  lemma DistZeroIff(a: string, b: string)
    ensures Dist(a, b) == 0 <==> a == b
  {
    PrefixDistZeroIff(a, b, |a|, |b|);
    if |a| == |b| && forall k :: 0 <= k < |a| ==> a[k] == b[k] {
      assert a == b;
    }
  }

  /** A non-zero distance is at least one confusable substitution. */
  lemma {:induction false} PrefixDistGap(a: string, b: string, i: nat, j: nat)
    requires i <= |a| && j <= |b|
    ensures PrefixDist(a, b, i, j) == 0 || PrefixDist(a, b, i, j) >= ConfusableCost
    decreases i + j
  {
    if i != 0 && j != 0 {
      PrefixDistGap(a, b, i - 1, j - 1);
    }
  }

  /** The distance never exceeds one full edit per character of the longer prefix. */
  lemma {:induction false} PrefixDistUpperBound(a: string, b: string, i: nat, j: nat)
    requires i <= |a| && j <= |b|
    ensures PrefixDist(a, b, i, j) <= EditCost * Max(i, j)
    decreases i + j
  {
    if i != 0 && j != 0 {
      PrefixDistUpperBound(a, b, i - 1, j - 1);
    }
  }

  /** The difference in length has to be paid for with insertions or deletions. */
  lemma {:induction false} PrefixDistLowerBound(a: string, b: string, i: nat, j: nat)
    requires i <= |a| && j <= |b|
    ensures PrefixDist(a, b, i, j) >= EditCost * (i - j)
    ensures PrefixDist(a, b, i, j) >= EditCost * (j - i)
    decreases i + j
  {
    if i != 0 && j != 0 {
      PrefixDistLowerBound(a, b, i - 1, j);
      PrefixDistLowerBound(a, b, i, j - 1);
      PrefixDistLowerBound(a, b, i - 1, j - 1);
    }
  }

  /** One more character of `b` lowers the distance by at most one edit. */
  lemma {:induction false} PrefixDistExtendRight(a: string, b: string, i: nat, j: nat)
    requires i <= |a| && j < |b|
    ensures PrefixDist(a, b, i, j) <= PrefixDist(a, b, i, j + 1) + EditCost
    decreases i
  {
    if i != 0 {
      PrefixDistExtendRight(a, b, i - 1, j);
    }
  }

  /** Equal last characters can always be matched at no cost. */
  lemma PrefixDistDropEqual(a: string, b: string, i: nat, j: nat)
    requires i < |a| && j < |b| && a[i] == b[j]
    ensures PrefixDist(a, b, i + 1, j + 1) == PrefixDist(a, b, i, j)
  {
    PrefixDistExtendRight(a, b, i, j);
    PrefixDistExtendRight(b, a, j, i);
    PrefixDistSymmetric(a, b, i + 1, j);
    PrefixDistSymmetric(a, b, i, j + 1);
    PrefixDistSymmetric(a, b, i, j);
  }

  /** Deleting one more character of `a` costs at most one edit. */
  lemma PrefixDistDeleteLast(a: string, b: string, i: nat, j: nat)
    requires i < |a| && j <= |b|
    ensures PrefixDist(a, b, i + 1, j) <= PrefixDist(a, b, i, j) + EditCost
  {
  }

  /** One diagonal step costs at most the substitution of the two characters. */
  lemma PrefixDistSubstitute(a: string, b: string, i: nat, j: nat)
    requires i < |a| && j < |b|
    ensures PrefixDist(a, b, i + 1, j + 1) <= PrefixDist(a, b, i, j) + SubCost(a[i], b[j])
  {
  }

  // ---------------------------------------------------------------------
  // _calculate_custom_levenshtein_distance
  // ---------------------------------------------------------------------

  /**
   * `_calculate_custom_levenshtein_distance`, with the distance in tenths:
   * both strings are upper-cased, and when the first is the shorter one the
   * call is repeated with the two swapped, so that the longer string always
   * gives the rows of the table.
   */
  method CustomLevenshteinDistance(s1: string, s2: string) returns (d: nat)
    ensures d == Dist(Upper(s1), Upper(s2))
    decreases if |s1| < |s2| then 1 else 0
  {
    var s1Upper, s2Upper := Upper(s1), Upper(s2);
    if |s1Upper| < |s2Upper| {
      d := CustomLevenshteinDistance(s2Upper, s1Upper);
      UpperIdempotent(s1);
      UpperIdempotent(s2);
      DistSymmetric(s2Upper, s1Upper);
      return;
    }
    if |s2Upper| == 0 {
      return EditCost * |s1Upper|;
    }
    d := RollingRows(s1Upper, s2Upper);
  }

  /** `row` is row `i` of the table of `rows` against `cols`. */
  predicate IsRow(rows: string, cols: string, i: nat, row: seq<nat>)
    requires i <= |rows|
  {
    |row| == |cols| + 1 && forall j :: 0 <= j <= |cols| ==> row[j] == PrefixDist(rows, cols, i, j)
  }

  /**
   * The table itself: `previousRow` holds the distances from `rows[..i]` to
   * every prefix of `cols`, and each pass of the outer loop builds the row
   * of `rows[..i + 1]` from it.
   */
  method RollingRows(rows: string, cols: string) returns (d: nat)
    requires |rows| >= |cols| > 0
    ensures d == Dist(rows, cols)
  {
    var previousRow: seq<nat> := seq(|cols| + 1, j => EditCost * j);
    assert IsRow(rows, cols, 0, previousRow);
    var i := 0;
    while i < |rows|
      invariant 0 <= i <= |rows|
      invariant IsRow(rows, cols, i, previousRow)
    {
      previousRow := NextRow(rows, cols, i, previousRow);
      i := i + 1;
    }
    d := previousRow[|cols|];
  }

  /** The inner loop: the row of `rows[..i + 1]`, one cell at a time, from the row of `rows[..i]`. */
  method NextRow(rows: string, cols: string, i: nat, previousRow: seq<nat>) returns (currentRow: seq<nat>)
    requires i < |rows| && IsRow(rows, cols, i, previousRow)
    ensures IsRow(rows, cols, i + 1, currentRow)
  {
    currentRow := [EditCost * (i + 1)];
    var j := 0;
    while j < |cols|
      invariant 0 <= j <= |cols|
      invariant |currentRow| == j + 1
      invariant forall k :: 0 <= k <= j ==> currentRow[k] == PrefixDist(rows, cols, i + 1, k)
    {
      var insertions := previousRow[j + 1] + EditCost;
      var deletions := currentRow[j] + EditCost;
      var substitutions := previousRow[j] + SubCost(rows[i], cols[j]);
      assert Min3(insertions, deletions, substitutions) == PrefixDist(rows, cols, i + 1, j + 1);
      currentRow := currentRow + [Min3(insertions, deletions, substitutions)];
      j := j + 1;
    }
  }

  // ---------------------------------------------------------------------
  // calculate_similarity_score
  // ---------------------------------------------------------------------

  /** `calculate_similarity_score`: 1 - distance / longer length, clamped at 0. */
  function SimilarityScore(s1: string, s2: string): (r: real)
    ensures 0.0 <= r <= 1.0
  {
    if |s1| == 0 && |s2| == 0 then 1.0
    else if |s1| == 0 || |s2| == 0 then 0.0
    else
      var distance := Dist(Upper(s1), Upper(s2)) as real / EditCost as real;
      var maxLen := Max(|s1|, |s2|) as real;
      var similarity := 1.0 - distance / maxLen;
      if similarity < 0.0 then 0.0 else similarity
  }

  /** The unclamped score, for two non-empty strings. */
  function RawScore(s1: string, s2: string): real
    requires |s1| > 0 && |s2| > 0
  {
    1.0 - Ratio(Dist(Upper(s1), Upper(s2)), Max(|s1|, |s2|))
  }

  /** For two non-empty strings the clamp at 0 never applies. */
  lemma SimilarityIsRawScore(s1: string, s2: string)
    requires |s1| > 0 && |s2| > 0
    ensures SimilarityScore(s1, s2) == RawScore(s1, s2)
  {
    var d := Dist(Upper(s1), Upper(s2));
    var m := Max(|s1|, |s2|);
    PrefixDistUpperBound(Upper(s1), Upper(s2), |s1|, |s2|);
    RatioAtMostOne(d, m);
  }

  /** A distance of `d` tenths over `m` characters, as the score computes it. */
  function Ratio(d: nat, m: nat): real
  {
    if m == 0 then 0.0 else (d as real / EditCost as real) / m as real
  }

  /** A distance of at most one edit per character gives a ratio of at most 1. */
  lemma RatioAtMostOne(d: nat, m: nat)
    requires m > 0 && d <= EditCost * m
    ensures Ratio(d, m) <= 1.0
  {
    var y := d as real / EditCost as real;
    assert y <= m as real;
  }

  /** Empty strings: both empty is a perfect match, exactly one empty no match at all. */
  lemma SimilarityEmpty(s: string)
    ensures SimilarityScore("", "") == 1.0
    ensures |s| > 0 ==> SimilarityScore(s, "") == 0.0 && SimilarityScore("", s) == 0.0
  {
  }

  /** The score does not depend on the order of its arguments. */
  lemma SimilaritySymmetric(s1: string, s2: string)
    ensures SimilarityScore(s1, s2) == SimilarityScore(s2, s1)
  {
    DistSymmetric(Upper(s1), Upper(s2));
  }

  /** Two non-empty strings score 1.0 exactly when they agree up to case. */
  lemma SimilarityOneIff(s1: string, s2: string)
    requires |s1| > 0 && |s2| > 0
    ensures SimilarityScore(s1, s2) == 1.0 <==> Upper(s1) == Upper(s2)
  {
    SimilarityIsRawScore(s1, s2);
    DistZeroIff(Upper(s1), Upper(s2));
  }

  /** Every non-empty string is a perfect match for itself. */
  lemma SimilarityReflexive(s: string)
    ensures SimilarityScore(s, s) == 1.0
  {
    if |s| > 0 {
      SimilarityOneIff(s, s);
    }
  }

  /** `a[i..]` and `b[j..]` are the same string. */
  predicate SameSuffix(a: string, b: string, i: nat, j: nat)
    requires i <= |a| && j <= |b|
  {
    |a| - i == |b| - j && forall t :: i <= t < |a| ==> a[t] == b[j + (t - i)]
  }

  /** Equal trailing characters do not change the distance. */
  lemma {:induction false} EqualSuffixKeeps(a: string, b: string, i: nat, j: nat)
    requires i <= |a| && j <= |b| && SameSuffix(a, b, i, j)
    ensures Dist(a, b) == PrefixDist(a, b, i, j)
    decreases |a| - i
  {
    if i < |a| {
      PrefixDistDropEqual(a, b, i, j);
      EqualSuffixKeeps(a, b, i + 1, j + 1);
    }
  }

  /**
   * Two strings of the same length that differ in one position only are at
   * the substitution cost of that position: 3 tenths for a confusable pair,
   * 10 for any other.
   */
  lemma SingleSubstitutionDist(a: string, b: string, k: nat)
    requires |a| == |b| && k < |a|
    requires forall i :: 0 <= i < |a| && i != k ==> a[i] == b[i]
    ensures Dist(a, b) == SubCost(a[k], b[k])
  {
    PrefixDistZeroIff(a, b, k, k);
    PrefixDistLowerBound(a, b, k, k + 1);
    PrefixDistLowerBound(a, b, k + 1, k);
    PrefixDistUnfold(a, b, k + 1, k + 1);
    EqualSuffixKeeps(a, b, k + 1, k + 1);
  }

  /** A string with one character more than another, and otherwise equal to it, is one edit away. */
  lemma OneExtraCharacterDist(a: string, b: string, k: nat)
    requires |a| == |b| + 1 && k < |a|
    requires forall i :: 0 <= i < k ==> a[i] == b[i]
    requires forall i :: k <= i < |b| ==> a[i + 1] == b[i]
    ensures Dist(a, b) == EditCost
  {
    PrefixDistZeroIff(a, b, k, k);
    PrefixDistDeleteLast(a, b, k, k);
    PrefixDistLowerBound(a, b, k + 1, k);
    forall t | k + 1 <= t < |a|
      ensures a[t] == b[k + (t - (k + 1))]
    {
      assert a[(t - 1) + 1] == b[t - 1];
    }
    assert SameSuffix(a, b, k + 1, k);
    EqualSuffixKeeps(a, b, k + 1, k);
  }

  /** Sum of the substitution costs of the first `i` aligned positions. */
  function DiagonalCost(a: string, b: string, i: nat): nat
    requires i <= |a| && i <= |b|
  {
    if i == 0 then 0 else DiagonalCost(a, b, i - 1) + SubCost(a[i - 1], b[i - 1])
  }

  /** Substituting position by position is one way through the table, so it bounds the distance. */
  lemma {:induction false} PrefixDistAtMostDiagonal(a: string, b: string, i: nat)
    requires i <= |a| && i <= |b|
    ensures PrefixDist(a, b, i, i) <= DiagonalCost(a, b, i)
  {
    if i > 0 {
      PrefixDistAtMostDiagonal(a, b, i - 1);
      PrefixDistSubstitute(a, b, i - 1, i - 1);
    }
  }

  /**
   * After upper-casing, two strings of length `n` differing in one position
   * score `1 - cost / n`, with the cost 0.3 for a confusable pair and 1.0
   * otherwise: "OPEN" against "0PEN" scores 1 - 0.3 / 4 = 0.925 and "HH"
   * against "HM" scores 1 - 0.3 / 2 = 0.85.
   */
  lemma SingleSubstitutionScore(s1: string, s2: string, k: nat)
    requires |s1| == |s2| && k < |s1|
    requires forall i :: 0 <= i < |s1| && i != k ==> UpperChar(s1[i]) == UpperChar(s2[i])
    ensures SimilarityScore(s1, s2) ==
            1.0 - Ratio(SubCost(UpperChar(s1[k]), UpperChar(s2[k])), |s1|)
  {
    SingleSubstitutionDist(Upper(s1), Upper(s2), k);
    SimilarityIsRawScore(s1, s2);
  }

  /** A confusable misreading is scored above a plain one in the same position. */
  lemma ConfusableScoresHigher(s: string, t: string, u: string, k: nat)
    requires |s| == |t| == |u| && k < |s|
    requires forall i :: 0 <= i < |s| && i != k ==> UpperChar(s[i]) == UpperChar(t[i]) == UpperChar(u[i])
    requires Confusable(UpperChar(s[k]), UpperChar(t[k]))
    requires UpperChar(s[k]) != UpperChar(u[k]) && !Confusable(UpperChar(s[k]), UpperChar(u[k]))
    ensures SimilarityScore(s, t) > SimilarityScore(s, u)
  {
    var a, b, c := UpperChar(s[k]), UpperChar(t[k]), UpperChar(u[k]);
    SingleSubstitutionScore(s, t, k);
    SingleSubstitutionScore(s, u, k);
    ConfusableNotEqual(a, b);
    assert SubCost(a, b) == ConfusableCost && SubCost(a, c) == EditCost;
    RatioStrict(ConfusableCost, EditCost, |s|);
  }

  lemma ConfusableNotEqual(a: char, b: char)
    requires Confusable(a, b)
    ensures a != b
  {
  }

  /**
   * One character too many, as a hyphen read into a plate, costs one edit
   * over the longer length: "1S8-3HH" against "1S83HH" scores 1 - 1 / 7.
   */
  lemma OneExtraCharacterScore(s1: string, s2: string, k: nat)
    requires |s1| == |s2| + 1 && k < |s1|
    requires forall i :: 0 <= i < k ==> UpperChar(s1[i]) == UpperChar(s2[i])
    requires forall i :: k <= i < |s2| ==> UpperChar(s1[i + 1]) == UpperChar(s2[i])
    ensures SimilarityScore(s1, s2) == 1.0 - 1.0 / |s1| as real
  {
    if |s2| == 0 {
      assert SimilarityScore(s1, s2) == 0.0;
    } else {
      OneExtraCharacterDist(Upper(s1), Upper(s2), k);
      SimilarityIsRawScore(s1, s2);
      assert Ratio(EditCost, |s1|) == 1.0 / |s1| as real;
    }
  }

  /**
   * Two strings of the same length score at least `1 - c / n`, where `c` is
   * the sum of the substitution costs position by position.
   */
  lemma DiagonalScoreBound(s1: string, s2: string)
    requires |s1| == |s2| > 0
    ensures SimilarityScore(s1, s2) >=
            1.0 - Ratio(DiagonalCost(Upper(s1), Upper(s2), |s1|), |s1|)
  {
    var c := DiagonalCost(Upper(s1), Upper(s2), |s1|);
    PrefixDistAtMostDiagonal(Upper(s1), Upper(s2), |s1|);
    SimilarityIsRawScore(s1, s2);
    RatioMonotone(Dist(Upper(s1), Upper(s2)), c, |s1|);
  }

  lemma RatioMonotone(d: nat, c: nat, m: nat)
    requires d <= c && m > 0
    ensures 1.0 - Ratio(d, m) >= 1.0 - Ratio(c, m)
  {
    var x, y := d as real / EditCost as real, c as real / EditCost as real;
    assert x <= y;
  }

  lemma RatioStrict(d: nat, c: nat, m: nat)
    requires d < c && m > 0
    ensures 1.0 - Ratio(d, m) > 1.0 - Ratio(c, m)
  {
    var x, y, n := d as real / EditCost as real, c as real / EditCost as real, m as real;
    assert x < y;
    assert y / n - x / n == (y - x) / n;
    assert (y - x) / n > 0.0;
  }

  // ---------------------------------------------------------------------
  // is_string_similar_to_any_in_list
  // ---------------------------------------------------------------------

  /** `confidence_percent / 100.0` */
  function Threshold(confidencePercent: int): real
  {
    confidencePercent as real / 100.0
  }

  /** Some entry of the list scores at least the threshold against the text. */
  ghost predicate SomeEntryClears(text: string, entries: seq<string>, confidencePercent: int)
  {
    exists k :: 0 <= k < |entries| && SimilarityScore(text, entries[k]) >= Threshold(confidencePercent)
  }

  /**
   * `is_string_similar_to_any_in_list`: scans the list in order and stops at
   * the first entry whose score reaches the threshold; an empty list never
   * matches.
   */
  method IsStringSimilarToAnyInList(textToCompare: string, stringList: seq<string>, confidencePercent: int)
    returns (found: bool)
    ensures found <==> SomeEntryClears(textToCompare, stringList, confidencePercent)
    ensures stringList == [] ==> !found
  {
    if |stringList| == 0 {
      return false;
    }
    var normalizedConfidenceThreshold := Threshold(confidencePercent);
    var k := 0;
    while k < |stringList|
      invariant 0 <= k <= |stringList|
      invariant forall m :: 0 <= m < k ==> SimilarityScore(textToCompare, stringList[m]) < normalizedConfidenceThreshold
    {
      var similarity := SimilarityScore(textToCompare, stringList[k]);
      if similarity >= normalizedConfidenceThreshold {
        return true;
      }
      k := k + 1;
    }
    return false;
  }

  /** Lowering the threshold never turns a match into a miss. */
  lemma MatchMonotoneInThreshold(text: string, entries: seq<string>, high: int, low: int)
    requires low <= high
    requires SomeEntryClears(text, entries, high)
    ensures SomeEntryClears(text, entries, low)
  {
    var k :| 0 <= k < |entries| && SimilarityScore(text, entries[k]) >= Threshold(high);
    assert SimilarityScore(text, entries[k]) >= Threshold(low);
  }

  /** A whitelist entry equal to the text up to case always matches, at any threshold up to 100. */
  lemma ExactEntryMatches(text: string, entries: seq<string>, k: nat, confidencePercent: int)
    requires k < |entries| && Upper(entries[k]) == Upper(text)
    requires confidencePercent <= 100
    ensures SomeEntryClears(text, entries, confidencePercent)
  {
    if |text| > 0 && |entries[k]| > 0 {
      SimilarityOneIff(text, entries[k]);
    }
    assert SimilarityScore(text, entries[k]) == 1.0;
  }

  // ---------------------------------------------------------------------
  // The worked examples in the comments at the end of util.py
  // ---------------------------------------------------------------------

  /** A string with no lower-case letter is its own upper-cased form. */
  lemma UpperKeepsCapitals(s: string)
    requires NoLowerCase(s)
    ensures Upper(s) == s
  {
  }

  /** "OPEN" against "0PEN": one confusable pair in four characters scores 1 - 0.3 / 4. */
  lemma OpenAgainstZeroPenScore()
    ensures SimilarityScore("OPEN", "0PEN") == 0.925
  {
    SingleSubstitutionScore("OPEN", "0PEN", 0);
    assert SubCost('O', '0') == ConfusableCost;
  }

  /** "S8" against "SB" and "HH" against "HM": one confusable pair in two characters scores 0.85. */
  lemma TwoCharacterConfusableScores()
    ensures SimilarityScore("S8", "SB") == 0.85
    ensures SimilarityScore("HH", "HM") == 0.85
  {
    SingleSubstitutionScore("S8", "SB", 1);
    assert SubCost('8', 'B') == ConfusableCost;
    SingleSubstitutionScore("HH", "HM", 1);
    assert SubCost('H', 'M') == ConfusableCost;
  }

  /** "1S8-3HH" against "1S83HH": the hyphen costs one edit over seven characters. */
  lemma HyphenatedPlateScore()
    ensures SimilarityScore("1S8-3HH", "1S83HH") == 1.0 - 1.0 / 7.0
  {
    OneExtraCharacterScore("1S8-3HH", "1S83HH", 3);
  }

  /**
   * Seven characters against six, aligned as in "1S8-3HH" against "1SB3HM":
   * the fourth character of `a` is dropped and the rest are substituted
   * in order, so the distance is at most one edit plus the substitutions.
   */
  lemma {:induction false} DropFourthBound(a: string, b: string)
    requires |a| == 7 && |b| == 6
    requires a[0] == b[0] && a[1] == b[1] && a[4] == b[3] && a[5] == b[4]
    ensures Dist(a, b) <= EditCost + SubCost(a[2], b[2]) + SubCost(a[6], b[5])
  {
    PrefixDistDropEqual(a, b, 0, 0);
    PrefixDistDropEqual(a, b, 1, 1);
    PrefixDistSubstitute(a, b, 2, 2);
    PrefixDistDeleteLast(a, b, 3, 3);
    PrefixDistDropEqual(a, b, 4, 3);
    PrefixDistDropEqual(a, b, 5, 4);
    PrefixDistSubstitute(a, b, 6, 5);
  }

  /**
   * For upper-case strings with the first one at least as long, a distance
   * of at most `c` tenths gives a score of at least `1 - c / (10 * |a|)`.
   */
  lemma ScoreFromDistBound(a: string, b: string, c: nat)
    requires |a| >= |b| > 0 && NoLowerCase(a) && NoLowerCase(b)
    requires Dist(a, b) <= c
    ensures SimilarityScore(a, b) >= 1.0 - Ratio(c, |a|)
  {
    UpperKeepsCapitals(a);
    UpperKeepsCapitals(b);
    SimilarityIsRawScore(a, b);
    RatioMonotone(Dist(a, b), c, |a|);
  }

  /**
   * With two confusable pairs in that alignment, the score is at least
   * 1 - (0.3 + 1 + 0.3) / 7.
   */
  lemma DropFourthScore(a: string, b: string)
    requires |a| == 7 && |b| == 6 && NoLowerCase(a) && NoLowerCase(b)
    requires a[0] == b[0] && a[1] == b[1] && a[4] == b[3] && a[5] == b[4]
    requires Confusable(a[2], b[2]) && Confusable(a[6], b[5])
    ensures SimilarityScore(a, b) >= 1.0 - 1.6 / 7.0
  {
    assert Ratio(16, 7) == 1.6 / 7.0;
    assert Dist(a, b) <= 16 by {
      ConfusableNotEqual(a[2], b[2]);
      ConfusableNotEqual(a[6], b[5]);
      DropFourthBound(a, b);
    }
    ScoreFromDistBound(a, b, 16);
  }

  /** "1S8-3HH" against "1SB3HM" scores at least 1 - 1.6 / 7, above 70%. */
  lemma HyphenatedMisreadScore()
    ensures SimilarityScore("1S8-3HH", "1SB3HM") >= 1.0 - 1.6 / 7.0
    ensures SimilarityScore("1S8-3HH", "1SB3HM") >= Threshold(70)
  {
    DropFourthScore("1S8-3HH", "1SB3HM");
  }

  /** "1SB3HM" against "1S83HH": two confusable pairs in six characters score at least 0.9. */
  lemma TwoConfusablePairsScore()
    ensures SimilarityScore("1SB3HM", "1S83HH") >= 0.9
  {
    var a, b := "1SB3HM", "1S83HH";
    UpperKeepsCapitals(a);
    UpperKeepsCapitals(b);
    assert DiagonalCost(a, b, 6) == 2 * ConfusableCost;
    DiagonalScoreBound(a, b);
  }

  /**
   * The calls of `is_string_similar_to_any_in_list` in the comments:
   * "1S8-3HH" matches the list at 70% and at 80% (through "1S83HH"), and
   * matches "1S83HH" alone at 85%; an empty list matches nothing, and an
   * empty text matches an empty entry but no non-empty one.
   */
  lemma ListMatchExamples()
    ensures SomeEntryClears("1S8-3HH", ["1SB3HM", "XYZ789", "1S83HH"], 70)
    ensures SomeEntryClears("1S8-3HH", ["1SB3HM", "XYZ789", "1S83HH"], 80)
    ensures SomeEntryClears("1S8-3HH", ["1S83HH"], 85)
    ensures !SomeEntryClears("TEST", [], 70)
    ensures !SomeEntryClears("", ["A", "B"], 70)
    ensures SomeEntryClears("", [""], 70)
  {
    var list := ["1SB3HM", "XYZ789", "1S83HH"];
    HyphenatedPlateScore();
    assert SimilarityScore("1S8-3HH", list[2]) >= Threshold(80);
    assert SimilarityScore("1S8-3HH", ["1S83HH"][0]) >= Threshold(85);
    MatchMonotoneInThreshold("1S8-3HH", list, 80, 70);
    SimilarityEmpty("A");
    SimilarityEmpty("B");
    assert SimilarityScore("", [""][0]) >= Threshold(70);
  }
}

=== FILE: wrappers.dfy ===
/** The "may be absent" values of the recognition pipeline (Python's None). */
module Wrappers {

  datatype Option<+T> = None | Some(value: T)
}
